=== FILE: README.md ===
# silex-simpleuser-jwt, modelled in Dafny

This project models the core of the Silex JWT user provider. The provider has three parts:

- seven HTTP handlers: register, login, invite, friends, forget, reset and update;
- the service provider that validates and merges the `user.jwt.options` tree and binds the routes;
- the `User` entity's public serialization, which becomes the JWT payload.

Each handler is a pure function. It takes the configuration, the user store and the request fields, and gives back either an error kind or an `Outcome`: the new store, the JSON reply and the mail to send, if any.

The user store is a `map<UserId, User>`. A user's id is its key. The source's `findOneBy` query has no ordering, so which of several matching users it returns is unspecified; the model chooses the one with the smallest id. A new user gets the next free id, which is one more than the largest key, or 1 in an empty store.

Some parts of the system are passed in as parameters, and the model only requires what the code relies on:

- **Outside services** (`Controller.Services`):
  - the `FILTER_VALIDATE_EMAIL` check;
  - the password encoder and its verifier;
  - the reset-token expiry test.
- **Per-request draws** (`Controller.Draw`):
  - the clock;
  - the token generator;
  - the salt.

Files:

| file | module | what it holds |
|---|---|---|
| common.dfy | `Common` | `Option` and `Result` |
| roles.dfy | `Roles` | role hierarchy closure (`isGranted`) and the hierarchy the integration tests install |
| users.dfy | `Users` | the `User` entity, `serialize` / `jsonSerialize` and the claims they expose |
| store.dfy | `Store` | the user store, `findOneBy` by email and by token, next id, store well-formedness |
| options.dfy | `Options` | PHP option trees, truthiness, `array_replace_recursive` |
| controller.dfy | `Controller` | the seven handlers, their error kinds and replies |
| provider.dfy | `Provider` | `UserProvider::register` (dependencies, defaults, mailer checks, `user.options`) and `connect` (the route table) |
| lifecycle.dfy | `Lifecycle` | properties that span several handler calls |
| messages.dfy | `Messages` | the English catalog and which constant each error kind is thrown with |

PHP's behaviour is modelled as follows:

- **Truthiness.** An absent field, `""`, `"0"` and the integer 0 are false (`Controller.Filled`, `Options.Truthy`). An empty array is false: `update` ignores an empty `customFields`.
- **Error kinds.** Each exception becomes an `ErrorKind`:
  - `Exception` from a disabled feature is `FeatureOff`;
  - `InvalidArgumentException` is `InvalidArgument(reason)`;
  - `UsedException` is `Used`;
  - `UnknownException` is `Unknown`;
  - `MismatchException` is `Mismatch`;
  - `DisabledException` is `Disabled`;
  - `AuthorizationException` is `Forbidden`;
  - `ExpiredException` is `Expired`.
- **Other failures.** Two more kinds stand for failures that raise no exception of the library's own:
  - `Unauthenticated`: no principal is logged in, so `getToken()` or `isGranted` fails before any other check (in invite, after the feature switch), where the firewall normally stops such a request. This applies to invite, friends and update alike;
  - `NoSuchTarget`: an administrator's update names an id with no user, and `update` then calls a method on `null`.

## Model

| member | source | states |
|---|---|---|
| Controller.ConfigOf | src/UserController.php:31-239 | Each switch the handlers test is the PHP truthiness of its option path: registrations.enabled (:31), registrations.confirm (:52), invite.enabled (:123) and forget.enabled, which switches both forget (:191) and reset (:239). Each template and route is the raw option: the register confirm and welcome templates (:57, :64, :66), the invite template (:154), the forget template (:214), and the login and reset routes (:58, :67). |
| Controller.Register | src/UserController.php:27-76 | Errors come in source order: registrations off, then email or password missing, then an invalid email, then `Used` exactly when the email is taken. It succeeds exactly when all four checks pass. On success it inserts one user under a fresh id and leaves every other user as it was. The new user has ROLE_REGISTERED, the password encoded with the drawn salt, that salt, an empty name and username, and no custom fields. In confirm mode the user is disabled, holds the drawn token and timestamp, and gets a confirmation mail to the reset route. Otherwise the user is enabled, the reply carries a bearer token for the user with a null id, and exactly when the welcome template is truthy a welcome mail with that template goes to the login route, addressed to the new user, with no token. |
| Controller.Login | src/UserController.php:85-112 | Errors come in order: missing, invalid, then `Unknown` exactly when no user has the email. For the user found, the result is `Mismatch` exactly when the password does not verify, and `Disabled` exactly when it verifies but the account is disabled. It succeeds exactly when the first user with that email verifies and is enabled. The store is unchanged and the bearer token is that user's serialization. |
| Controller.Invite | src/UserController.php:120-167 | Errors come in order: invitations off, then `Unauthenticated` with nobody logged in, then `Forbidden` when the principal lacks ROLE_ALLOW_INVITE through the hierarchy, then email missing, then invalid, then `Used` exactly when the email is taken. It succeeds exactly when all checks pass. The invitee is inserted under a fresh id with ROLE_INVITED, a placeholder password encoded with the drawn salt, that salt, an empty name and username, disabled, holding the drawn token and timestamp, with `invited_by` set to the inviter's id. An invitation mail goes to the reset route. The token is echoed in the reply exactly in dev mode. |
| Controller.Friends | src/UserController.php:174-180 | The result holds exactly the users whose `invited_by` is the principal's id, each decoding to that user's public claims. |
| Controller.Forget | src/UserController.php:188-227 | Errors come in order: forget off, then email missing, then invalid, then `Unknown` exactly when no user has the email. On success only that user changes, and only its confirmation token and reset timestamp. A reset mail carries the token, and the token is echoed in dev mode. |
| Controller.Reset | src/UserController.php:236-260 | Reset is switched by the *forget* option. `TokenInvalid` comes exactly when no user holds the token. `Expired` comes exactly when the holder's request is older than the TTL. It succeeds exactly when forget is on and the token's holder has not expired. On success only that user changes: it is enabled, the token and timestamp are cleared, and the password is re-encoded. The reply carries the updated user's bearer token. |
| Controller.Resolve | src/UserController.php:280-286 | With nobody logged in the result is `Unauthenticated`. With a falsy id the target is the principal. With an id, an administrator targets that id, or nobody if the id matches no user. Anyone else is `Forbidden`. |
| Controller.Patched | src/UserController.php:288-309 | Only the posted, truthy fields change. The email changes only when it is well-formed. The password is re-encoded with the user's salt. The username changes only when the username is required. Custom fields change only when the posted array is non-empty. Roles, the enabled flag, the salt and the token state are never touched. |
| Controller.Update | src/UserController.php:273-314 | The target is resolved as above, with the same `Unauthenticated` and `Forbidden` errors. `Used` comes whenever a well-formed new email is already taken, including the target's own email. With no clash, an administrator's id that matches no user is `NoSuchTarget`. It succeeds exactly when the target exists and no such clash occurs. Only the target changes, to its patched form, and the reply carries its bearer token. |
| Users.Serialize | src/User.php:15-27 | The payload has exactly the keys id, roles, email and enabled, and it decodes back to the user's id, roles, email and enabled flag. |
| Users.JsonSerialize | src/User.php:45-47 | It has the same key set and decodes to the same claims as `serialize`. |
| Users.SerializeExactlyPublic | src/User.php:18-24 | Two users serialize equally if and only if their id, roles, email and enabled flag are equal. Password, salt, tokens, name and custom fields never leak. |
| Store.FindByEmail | src/UserController.php:43 | The result is None exactly when no user has the email. Otherwise it is the smallest id whose user has it. |
| Store.FindByToken | src/UserController.php:243 | The result is None exactly when no user holds the token. Otherwise it is the smallest id whose user holds it. |
| Store.FreshId | src/UserController.php:73 | The inserted user's id is not in the store and is greater than every existing id. |
| Roles.IsGranted | src/UserController.php:127 | A role the principal holds itself is granted; a granted role is one reachable through the hierarchy (see the lemmas below). |
| Roles.Closure | tests/UserControllerTests.php:93-97 | The reachable roles contain the held roles and are closed under the hierarchy. |
| Roles.ClosureLeast | tests/UserControllerTests.php:93-97 | The reachable roles are contained in every closed superset of the held roles, so they are the least such set. |
| Roles.GrantedByImplication | tests/UserControllerTests.php:93-97 | A role that a held role directly implies is granted. |
| Roles.GrantTransitive | tests/UserControllerTests.php:93-97 | A role granted through a role that is itself granted is granted. |
| Roles.GrantMonotone | tests/UserControllerTests.php:93-97 | Holding more roles never loses a grant. |
| Roles.RegisteredMayInvite | tests/UserControllerTests.php:95 | Under the tests' hierarchy, ROLE_REGISTERED reaches ROLE_ALLOW_INVITE. |
| Roles.AdminMayInvite | tests/UserControllerTests.php:95-96 | Under the tests' hierarchy, ROLE_ADMIN reaches ROLE_ALLOW_INVITE by way of ROLE_REGISTERED. |
| Roles.InvitedMayNotInvite | tests/UserControllerTests.php:94 | Under the tests' hierarchy, ROLE_INVITED does not reach ROLE_ALLOW_INVITE. |
| Roles.RegisteredIsNotAdmin | tests/UserControllerTests.php:94-96 | Under the tests' hierarchy, ROLE_REGISTERED does not reach ROLE_ADMIN. |
| Options.ReplaceRecursive | src/UserProvider.php:36-73 | Two arrays merge to an array whose keys are the union of both. A key only the defaults have keeps the default. A key the user gives replaces the default unless both values are arrays. A scalar on either side means the user's value is the result. |
| Options.OverrideWins | src/UserProvider.php:36-73 | Any scalar the user gives at any path is the merged value at that path. |
| Options.DefaultKept | src/UserProvider.php:36-73 | A default at a path the user leaves unspecified survives the merge. |
| Options.ReplaceWithNothing | src/UserProvider.php:35-36 | Merging an empty options array over the defaults leaves them as they are. |
| Options.ReplaceIdempotent | src/UserProvider.php:36-73 | Merging the same user options twice gives the same tree as merging them once. |
| Options.ReplaceSelf | src/UserProvider.php:36-73 | Merging a tree over itself gives the tree back. |
| Provider.Register | src/UserProvider.php:21-114 | The dependency errors come in source order: JWT encoder, then database, then voters. On success the options are the merge of the defaults with the user's options. When the mailer is off, enabled invitations is `MailerNeeded(Invitations)`, otherwise enabled forget is `MailerNeeded(Forgetting)`, otherwise wiring succeeds. When the mailer is on, a missing provider is reported in the order SwiftMailer, URL generator, Twig, and with all three present wiring succeeds. The parent library's options use the merged class and table names, with its mailer off. |
| Provider.Defaults | src/UserProvider.php:36-73 | The defaults are an array with exactly the top-level keys class, controller, language, registrations, invite, forget, tables and mailer. |
| Provider.MergedWithoutOptions | src/UserProvider.php:35-36 | With no user options, the merged options are exactly the defaults. |
| Provider.DefaultsWithoutOptions | src/UserProvider.php:36-73 | With no user options, registration succeeds. Registrations are on without confirmation, invitations, forget and the mailer are off, the catalog is English, and the parent library gets the default class and tables. |
| Provider.UserScalarWins | src/UserProvider.php:36-73 | Every scalar in the user's options is the merged value at its path. |
| Provider.UnspecifiedDefaultKept | src/UserProvider.php:36-73 | Every default at a path the user leaves unspecified is kept. |
| Provider.TestSwitchWins | tests/UserControllerTests.php:74-88 | Each of the mailer, invite and forget switches the tests turn on is on after the merge. |
| Provider.TestConfigurationWires | tests/UserControllerTests.php:74-90 | The tests' options, with every provider registered, wire up. Invitations and forget are on, registrations keep their defaults, and the invite template and reset route keep theirs. |
| Provider.Connect | src/UserProvider.php:139-151 | It binds seven routes, each to the configured controller class. |
| Provider.RouteBindings | src/UserProvider.php:142-148 | Each route name is bound to its verb, path and action: register, login, invite, forget, reset and update are POST, and friends is GET. |
| Provider.RouteNamesExact | src/UserProvider.php:142-148 | The route names are exactly the seven `user.jwt.*` names. |
| Provider.RouteNamesDistinct | src/UserProvider.php:142-148 | No two routes share a name. |
| Provider.OnlyProfileHasDefault | src/UserProvider.php:148 | The profile route `user.jwt.update` has the default `id => null`, and no other route has a parameter default. |
| Provider.DefaultMailRoutesResolve | src/UserProvider.php:68-71 | The default login and reset mail routes name bound routes, to the login and reset actions. |
| Lifecycle.InsertKeepsWellFormed | src/UserController.php:73 | Inserting a user with an unused email and a fresh or absent token keeps emails unique, tokens unique, and "a token is set exactly when a reset time is set". |
| Lifecycle.RegisterKeepsWellFormed | src/UserController.php:47-73 | A successful register preserves store well-formedness when the drawn token is fresh. |
| Lifecycle.InviteKeepsWellFormed | src/UserController.php:143-151 | A successful invite preserves store well-formedness when the drawn token is fresh. |
| Lifecycle.ForgetKeepsWellFormed | src/UserController.php:209-211 | A successful forget preserves store well-formedness when the drawn token is fresh. |
| Lifecycle.ResetKeepsWellFormed | src/UserController.php:253-257 | A successful reset preserves store well-formedness. |
| Lifecycle.UpdateKeepsWellFormed | src/UserController.php:288-311 | A successful update preserves store well-formedness. |
| Lifecycle.ResetTokenSingleUse | src/UserController.php:243-255 | After a successful reset, the same token is `TokenInvalid`. |
| Lifecycle.FindByEmailUnique | src/UserController.php:97 | In a well-formed store, the lookup by a user's email finds that user. |
| Lifecycle.FindInserted | src/UserController.php:73 | After inserting a user with an unused email, the lookup by that email finds the new user. |
| Lifecycle.FindByTokenUnique | src/UserController.php:243 | In a well-formed store, the lookup by a user's token finds that user. |
| Lifecycle.ForgetResetLogin | tests/UserControllerTests.php:282-334 | After forget, a reset with the issued token before expiry succeeds, and login with the new password then succeeds, even for a previously disabled account. |
| Lifecycle.RegisterThenLogin | tests/UserControllerTests.php:127-176 | A direct-activation registration logs in with the registered password. Its bearer token decodes to no id, {ROLE_REGISTERED}, the email and enabled. |
| Lifecycle.ConfirmModeBlocksLogin | src/UserController.php:52-55 | A confirm-mode registration cannot log in with the right password: the result is `Disabled`. |
| Lifecycle.CreatedEmailIsUsed | tests/UserControllerTests.php:140-145 | A registered email cannot be registered again: `Used`, or missing-field when no password is posted. An authorised inviter cannot invite it either: `Used`. |
| Lifecycle.DisabledWrongPasswordIsMismatch | src/UserController.php:103-109 | A disabled account with a wrong password gets `Mismatch`, never `Disabled`. |
| Lifecycle.InviteeIsFriend | tests/UserControllerTests.php:341-351 | The invitee appears in the inviter's friends, with claims (its id, {ROLE_INVITED}, its email, disabled). |
| Lifecycle.InvitedUserCannotInvite | tests/UserControllerTests.php:258-263 | Under the tests' hierarchy, a user holding only ROLE_INVITED is `Forbidden` to invite. |
| Lifecycle.RegisteredUserMayInvite | tests/UserControllerTests.php:233-239 | Under the tests' hierarchy, a user holding ROLE_REGISTERED passes the invitation check. |
| Lifecycle.EmptyPatchChangesNothing | src/UserController.php:288-311 | An update that posts no field leaves the store unchanged. |
| Lifecycle.OwnEmailIsUsed | src/UserController.php:288-291 | Posting one's own current email is `Used`. |
| Lifecycle.AdminChangesOthersEmail | src/UserController.php:282-292 | An administrator updating another user's email to an unused one succeeds and stores the new email. |
| Messages.English | src/Languages/English.php:7-29 | The catalog defines a text for every constant the controller names except EMAIL_USED and UNAUTHORIZED, and no defined text is empty. |
| Messages.Raise | src/Languages/English.php:7-29 | A throw yields the intended exception carrying the catalog's text exactly when the catalog defines the constant. Otherwise it is an undefined-constant error naming that constant. |
| Messages.UsedRaisesUndefinedConstant | src/UserController.php:43-44 | As written, registering an email that is already taken ends in the `Used` branch, which raises an undefined-constant error for EMAIL_USED instead of `UsedException`. |
| Messages.UnauthorizedRaisesUndefinedConstant | src/UserController.php:280-285 | As written, a logged-in non-administrator naming another profile to update ends in the `Forbidden` branch, which raises an undefined-constant error for UNAUTHORIZED instead of `AuthorizationException`. |
| Messages.MessageKey | src/UserController.php:32-250 | With EMAIL_USED corrected to EMAIL_ALREADY_REGISTERED, `Used` reads "Email already registered". Every other kind maps to the constant its throw sites read: each disabled feature to its *_DISABLED, missing and invalid fields to EMAIL_OR_PASSWORD_MISSING, EMAIL_MISSING, EMAIL_INVALID or TOKEN_INVALID, `Unknown` to EMAIL_UNKNOWN, `Mismatch` to PASSWORD_INVALID, `Disabled` to ACCOUNT_DISABLED, `Expired` to TOKEN_EXPIRED and `Forbidden` to INVITATIONS_FORBIDDEN. Every kind thrown with a message then raises its own exception with a catalog text. |

## Findings

| source | as written | input that shows it | evidently intended | confidence | as-written member | corrected member |
|---|---|---|---|---|---|---|
| src/UserController.php:44 (also :140, :290) | `UsedException($language::EMAIL_USED)`, but no catalog defines `EMAIL_USED` | register, invite or update with an email that is already taken | a `UsedException` with `EMAIL_ALREADY_REGISTERED` ("Email already registered"), as tests/UserControllerTests.php:144, :250 and :378 expect | high; not executed | Messages.UsedRaisesUndefinedConstant | Messages.MessageKey |
| src/UserController.php:285 | `AuthorizationException($language::UNAUTHORIZED)`, but no catalog defines `UNAUTHORIZED` | a logged-in non-administrator posts to `/profil/1` | an `AuthorizationException`, as tests/UserControllerTests.php:405 expects; no catalog text is evidently meant, so the corrected model keeps the kind `Forbidden` | high; not executed | Messages.UnauthorizedRaisesUndefinedConstant | Controller.Resolve |

The handlers in `Controller` use the intended kinds: `Used`, and `Forbidden` for update.

## Left out

- Sending mail: the mailer service, Swift transport, Twig rendering and the `from` address and name (src/UserProvider.php:98-104). A handler returns the `Mail` it would send (template, route, recipient, token). Failures while sending are not modelled.
- The order of sending and writing, which matters only when sending fails: register sends before its insert (src/UserController.php:56-70 against :73), so a failed send inserts nothing; invite and forget write first and send afterwards (:151 then :153, :211 then :213), so a failed send leaves the write in place and still returns an error. The model's "every check comes before the one write" holds for the checks it models, not for a mailer failure.
- The mailer switch at request time: the controller never reads `mailer.enabled`. Under the defaults (mailer off, welcome template `welcome.twig`, src/UserProvider.php:55-63), a direct registration still asks for `user.jwt.mailer`, which is built from the SwiftMailer, URL generator and Twig services (:98-99) that wiring only demands when the mailer is on (:76-87). The model returns the welcome `Mail` and does not model the missing-service failure.
- Message texts: apart from the English catalog used for the finding, replies carry a message tag. The French catalog is not modelled.
- JWT encoding and signing, and password hashing: these are opaque functions in `Services`. `Lifecycle.Consistent` only demands that the verifier accepts what the encoder produced.
- `FILTER_VALIDATE_EMAIL`: this is the `isEmail` oracle.
- Services.expired: the TTL comparison of `isPasswordResetRequestExpired` is an oracle over the stored timestamp and the current time. The TTL boundary is not modelled.
- `User::unserialize` (src/User.php:35-38): it reads the id from the raw JSON string rather than from the decoded array, and nothing in the core calls it.
- Doctrine persistence, the HTTP kernel, the security firewall and concurrency. The store is one immutable map per request.
- `createUser` of the parent library: a fresh user is assumed to be enabled, with no roles, token, name, username or custom fields.
- `getRoles` of the parent library: it is assumed to return exactly the stored roles, adding no base role such as ROLE_USER. `Users.Getters`, `Lifecycle.RegisterThenLogin` and `Lifecycle.InviteeIsFriend` rest on this when they name the exact role set in a bearer token.
- Option values: a PHP float has no case in `Options.Opt`. Null, booleans, integers (truthy when non-zero), strings and nested arrays are modelled.
- `UserProvider::register` registering the parent provider and `$app['users']` (src/UserProvider.php:116-122): these are outside this model.
- Provider.Register: user options given as a scalar instead of an array are not modelled. The container's value is a map or absent. Indexing into a scalar option reads as null (`Options.At`).
- Controller.Update: the PHP fatal error on an unknown target id is the `NoSuchTarget` kind. The model does not write the partial changes made before the crash, because there are none.
- The posted `id` route value is an integer. PHP's loose comparison of string ids is not modelled.

=== FILE: common.dfy ===
/** Small failure-carrying datatypes shared by every module of the model. */
module Common {

  /** A value that may be absent: PHP's `null`, an unset request field, a row not found. */
  datatype Option<+T> = None | Some(value: T) {

    /** The wrapped value, or `default` when absent. */
    function GetOr(default: T): T {
      match this
      case Some(v) => v
      case None => default
    }
  }

  /** The outcome of an operation: a value, or the kind of exception the source throws. */
  datatype Result<+T, +E> = Ok(value: T) | Err(error: E)
}

=== FILE: controller.dfy ===
/**
  The account-lifecycle engine: the seven handlers of the user controller as
  pure transitions over the user store.

  Each handler takes the configuration, the collaborators it consults
  (`Services`), the store, the acting principal when it needs one, the raw
  request fields and the values drawn from the environment for this request
  (`Draw`). It returns either the new store with the reply and the mail it
  sends, or the kind of exception the handler throws. Every check comes
  before the handler's one write, so a handler that fails a check writes
  nothing. The mail is returned rather than sent: a failure while sending
  is not modelled.
 */
module Controller {
  import opened Common
  import opened Roles
  import opened Users
  import opened Store
  import opened Options

  /** What the handlers read from `user.jwt.options` and the application. */
  datatype Config = Config(
    registrationsEnabled: bool,
    registrationsConfirm: bool,
    inviteEnabled: bool,
    forgetEnabled: bool,
    confirmTemplate: Opt,
    welcomeTemplate: Opt,
    inviteTemplate: Opt,
    forgetTemplate: Opt,
    loginRoute: Opt,
    resetRoute: Opt,
    dev: bool,
    usernameRequired: bool,
    hierarchy: Hierarchy)

  /**
    The handlers' reading of the merged option tree; `dev` is the
    application's dev flag, `usernameRequired` the user manager's setting and
    `h` the security role hierarchy.
   */
  function ConfigOf(opts: Opt, dev: bool, usernameRequired: bool, h: Hierarchy): (c: Config)
    ensures c.registrationsEnabled == Truthy(At(opts, ["registrations", "enabled"]))
    ensures c.registrationsConfirm == Truthy(At(opts, ["registrations", "confirm"]))
    ensures c.inviteEnabled == Truthy(At(opts, ["invite", "enabled"]))
    // reset is switched by the forget option, as the handler reads it
    ensures c.forgetEnabled == Truthy(At(opts, ["forget", "enabled"]))
    ensures c.confirmTemplate == At(opts, ["mailer", "templates", "register", "confirm"])
    ensures c.welcomeTemplate == At(opts, ["mailer", "templates", "register", "welcome"])
    ensures c.inviteTemplate == At(opts, ["mailer", "templates", "invite"])
    ensures c.forgetTemplate == At(opts, ["mailer", "templates", "forget"])
    ensures c.loginRoute == At(opts, ["mailer", "routes", "login"])
    ensures c.resetRoute == At(opts, ["mailer", "routes", "reset"])
    ensures c.dev == dev && c.usernameRequired == usernameRequired && c.hierarchy == h
  {
    Config(
      Truthy(At(opts, ["registrations", "enabled"])),
      Truthy(At(opts, ["registrations", "confirm"])),
      Truthy(At(opts, ["invite", "enabled"])),
      Truthy(At(opts, ["forget", "enabled"])),
      At(opts, ["mailer", "templates", "register", "confirm"]),
      At(opts, ["mailer", "templates", "register", "welcome"]),
      At(opts, ["mailer", "templates", "invite"]),
      At(opts, ["mailer", "templates", "forget"]),
      At(opts, ["mailer", "routes", "login"]),
      At(opts, ["mailer", "routes", "reset"]),
      dev, usernameRequired, h)
  }

  /**
    Collaborators the handlers call but whose logic lies elsewhere: PHP's
    email filter, the password encoder (check and encode, both salted), and
    the parent library's reset-expiry test for a request time and `now`.
   */
  datatype Services = Services(
    isEmail: string -> bool,
    passwordValid: (string, string, string) -> bool,
    encode: (string, string) -> string,
    expired: (Option<int>, int) -> bool)

  /** Values drawn for one request: the clock, a generated token, a second generated token, a salt. */
  datatype Draw = Draw(now: int, token: string, placeholder: string, salt: string)

  datatype Feature = Registrations | Invitations | Forgetting | Resetting

  datatype Reason = EmailOrPasswordMissing | EmailMissing | EmailInvalid | TokenInvalid

  /** The exception a handler throws, by class (and by reason for the argument errors). */
  datatype ErrorKind =
    | FeatureOff(feature: Feature)
    | InvalidArgument(reason: Reason)
    | Used
    | Unknown
    | Mismatch
    | Disabled
    | Forbidden
    | Expired
    | Unauthenticated
    | NoSuchTarget

  datatype Message = RegisterSuccess | InviteSuccess | ForgetSuccess | ResetSuccess

  /** A mail handed to the mailer: template, route of the link, recipient, token in the context. */
  datatype Mail = Mail(template: Opt, route: Opt, to: string, token: Option<string>)

  /** The JSON reply: a message, a bearer token over the given claims, an echoed confirmation token. */
  datatype Reply = Reply(message: Option<Message>, bearer: Option<ClaimMap>, token: Option<string>)

  datatype Outcome = Outcome(store: Store, reply: Reply, mail: Option<Mail>)

  /** PHP truthiness of a request field: absent, "" and "0" are all false. */
  predicate Filled(f: Option<string>) {
    f.Some? && f.value != "" && f.value != "0"
  }

  /** A principal is logged in and is a stored user. */
  predicate Authenticated(s: Store, actor: Option<UserId>) {
    actor.Some? && actor.value in s
  }

  /** The acting principal is authenticated and holds `role`, directly or through the hierarchy. */
  predicate Granted(cfg: Config, s: Store, actor: Option<UserId>, role: Role) {
    Authenticated(s, actor) && IsGranted(cfg.hierarchy, s[actor.value].roles, role)
  }

  /** `s'` is `s` with one user added under the new key `id`. */
  predicate Inserted(s: Store, s': Store, id: UserId) {
    && id !in s
    && s'.Keys == s.Keys + {id}
    && forall k :: k in s ==> s'[k] == s[k]
  }

  /** `s'` is `s` with at most the user under `id` rewritten. */
  predicate Rewritten(s: Store, s': Store, id: UserId) {
    && id in s
    && s'.Keys == s.Keys
    && forall k :: k in s && k != id ==> s'[k] == s[k]
  }

  /** The checks `register` makes before creating the user all pass. */
  predicate RegisterAdmits(cfg: Config, svc: Services, s: Store, email: Option<string>, password: Option<string>) {
    && cfg.registrationsEnabled
    && Filled(email) && Filled(password)
    && svc.isEmail(email.value)
    && !EmailTaken(s, email.value)
  }

  /** `UserController::register`. */
  function Register(cfg: Config, svc: Services, s: Store, email: Option<string>, password: Option<string>, o: Draw)
    : (r: Result<Outcome, ErrorKind>)
    ensures !cfg.registrationsEnabled ==> r == Err(FeatureOff(Registrations))
    ensures cfg.registrationsEnabled && !(Filled(email) && Filled(password)) ==>
      r == Err(InvalidArgument(EmailOrPasswordMissing))
    ensures cfg.registrationsEnabled && Filled(email) && Filled(password) && !svc.isEmail(email.value) ==>
      r == Err(InvalidArgument(EmailInvalid))
    ensures r == Err(Used) <==>
      cfg.registrationsEnabled && Filled(email) && Filled(password) && svc.isEmail(email.value) && EmailTaken(s, email.value)
    ensures r.Ok? <==> RegisterAdmits(cfg, svc, s, email, password)
    ensures r.Ok? ==> Inserted(s, r.value.store, FreshId(s))
    ensures r.Ok? ==>
      var out, id := r.value, FreshId(s);
      var u := out.store[id];
      && u.email == email.value
      && u.password == svc.encode(password.value, o.salt) && u.salt == o.salt
      && u.roles == {RoleRegistered}
      && u.customFields == map[]
      && u.name == "" && u.username == ""
      && out.reply.message == Some(RegisterSuccess)
      && out.reply.token == None
      && (cfg.registrationsConfirm ==>
            && !u.enabled
            && u.confirmationToken == Some(o.token)
            && u.timePasswordResetRequested == Some(o.now)
            && out.reply.bearer == None
            && out.mail == Some(Mail(cfg.confirmTemplate, cfg.resetRoute, u.email, Some(o.token))))
      && (!cfg.registrationsConfirm ==>
            && u.enabled
            && u.confirmationToken == None
            && u.timePasswordResetRequested == None
            && out.reply.bearer == Some(Serialize(None, u))
            && out.mail == (if Truthy(cfg.welcomeTemplate) then Some(Mail(cfg.welcomeTemplate, cfg.loginRoute, email.value, None)) else None))
  {
    if !cfg.registrationsEnabled then Err(FeatureOff(Registrations))
    else if !Filled(email) || !Filled(password) then Err(InvalidArgument(EmailOrPasswordMissing))
    else if !svc.isEmail(email.value) then Err(InvalidArgument(EmailInvalid))
    else if FindByEmail(s, email.value).Some? then Err(Used)
    else
      var created := Created(email.value, svc.encode(password.value, o.salt), o.salt);
      var user := created.(roles := created.roles + {RoleRegistered});
      var id := FreshId(s);
      if cfg.registrationsConfirm then
        var pending := user.(enabled := false, timePasswordResetRequested := Some(o.now), confirmationToken := Some(o.token));
        var mail := Mail(cfg.confirmTemplate, cfg.resetRoute, pending.email, pending.confirmationToken);
        Ok(Outcome(s[id := pending], Reply(Some(RegisterSuccess), None, None), Some(mail)))
      else
        // The bearer token is encoded before the insert, so its id claim is null.
        var mail := if Truthy(cfg.welcomeTemplate) then Some(Mail(cfg.welcomeTemplate, cfg.loginRoute, user.email, None)) else None;
        Ok(Outcome(s[id := user], Reply(Some(RegisterSuccess), Some(Serialize(None, user)), None), mail))
  }

  /** `UserController::login`. It never writes. */
  function Login(svc: Services, s: Store, email: Option<string>, password: Option<string>)
    : (r: Result<Outcome, ErrorKind>)
    ensures !(Filled(email) && Filled(password)) ==> r == Err(InvalidArgument(EmailOrPasswordMissing))
    ensures Filled(email) && Filled(password) && !svc.isEmail(email.value) ==> r == Err(InvalidArgument(EmailInvalid))
    ensures r == Err(Unknown) <==>
      Filled(email) && Filled(password) && svc.isEmail(email.value) && !EmailTaken(s, email.value)
    ensures Filled(email) && Filled(password) && svc.isEmail(email.value) && FindByEmail(s, email.value).Some? ==>
      var id := FindByEmail(s, email.value).value;
      && (r == Err(Mismatch) <==> !svc.passwordValid(s[id].password, password.value, s[id].salt))
      && (r == Err(Disabled) <==> svc.passwordValid(s[id].password, password.value, s[id].salt) && !s[id].enabled)
    ensures r.Ok? <==>
      && Filled(email) && Filled(password) && svc.isEmail(email.value)
      && FindByEmail(s, email.value).Some?
      && var id := FindByEmail(s, email.value).value;
         svc.passwordValid(s[id].password, password.value, s[id].salt) && s[id].enabled
    ensures r.Ok? ==>
      var id := FindByEmail(s, email.value).value;
      r.value == Outcome(s, Reply(None, Some(Serialize(Some(id), s[id])), None), None)
  {
    if !Filled(email) || !Filled(password) then Err(InvalidArgument(EmailOrPasswordMissing))
    else if !svc.isEmail(email.value) then Err(InvalidArgument(EmailInvalid))
    else match FindByEmail(s, email.value)
      case None => Err(Unknown)
      case Some(id) =>
        var u := s[id];
        if !svc.passwordValid(u.password, password.value, u.salt) then Err(Mismatch)
        else if !u.enabled then Err(Disabled)
        else Ok(Outcome(s, Reply(None, Some(Serialize(Some(id), u)), None), None))
  }

  /** The checks `invite` makes before creating the user all pass. */
  predicate InviteAdmits(cfg: Config, svc: Services, s: Store, actor: Option<UserId>, email: Option<string>) {
    && cfg.inviteEnabled
    && Granted(cfg, s, actor, RoleAllowInvite)
    && Filled(email)
    && svc.isEmail(email.value)
    && !EmailTaken(s, email.value)
  }

  /** `UserController::invite`. */
  function Invite(cfg: Config, svc: Services, s: Store, actor: Option<UserId>, email: Option<string>, o: Draw)
    : (r: Result<Outcome, ErrorKind>)
    ensures !cfg.inviteEnabled ==> r == Err(FeatureOff(Invitations))
    ensures cfg.inviteEnabled && !Authenticated(s, actor) ==> r == Err(Unauthenticated)
    ensures cfg.inviteEnabled && Authenticated(s, actor) && !Granted(cfg, s, actor, RoleAllowInvite) ==> r == Err(Forbidden)
    ensures cfg.inviteEnabled && Granted(cfg, s, actor, RoleAllowInvite) && !Filled(email) ==>
      r == Err(InvalidArgument(EmailMissing))
    ensures cfg.inviteEnabled && Granted(cfg, s, actor, RoleAllowInvite) && Filled(email) && !svc.isEmail(email.value) ==>
      r == Err(InvalidArgument(EmailInvalid))
    ensures r == Err(Used) <==>
      cfg.inviteEnabled && Granted(cfg, s, actor, RoleAllowInvite) && Filled(email) && svc.isEmail(email.value)
      && EmailTaken(s, email.value)
    ensures r.Ok? <==> InviteAdmits(cfg, svc, s, actor, email)
    ensures r.Ok? ==> Inserted(s, r.value.store, FreshId(s))
    ensures r.Ok? ==>
      var out, id := r.value, FreshId(s);
      var u := out.store[id];
      && u.email == email.value
      && u.password == svc.encode(o.placeholder, o.salt) && u.salt == o.salt
      && u.name == "" && u.username == ""
      && u.roles == {RoleInvited}
      && u.customFields == map["invited_by" := IdText(actor.value)]
      && !u.enabled
      && u.confirmationToken == Some(o.token)
      && u.timePasswordResetRequested == Some(o.now)
      && out.mail == Some(Mail(cfg.inviteTemplate, cfg.resetRoute, u.email, Some(o.token)))
      && out.reply.message == Some(InviteSuccess)
      && out.reply.bearer == None
      && (out.reply.token.Some? <==> cfg.dev)
      && (cfg.dev ==> out.reply.token == u.confirmationToken)
  {
    if !cfg.inviteEnabled then Err(FeatureOff(Invitations))
    // With nobody logged in, `isGranted` itself throws: there is no token to check.
    else if !Authenticated(s, actor) then Err(Unauthenticated)
    else if !Granted(cfg, s, actor, RoleAllowInvite) then Err(Forbidden)
    else if !Filled(email) then Err(InvalidArgument(EmailMissing))
    else if !svc.isEmail(email.value) then Err(InvalidArgument(EmailInvalid))
    else if FindByEmail(s, email.value).Some? then Err(Used)
    else
      var created := Created(email.value, svc.encode(o.placeholder, o.salt), o.salt);
      var invited := created.(
        customFields := created.customFields["invited_by" := IdText(actor.value)],
        roles := created.roles + {RoleInvited},
        enabled := false,
        timePasswordResetRequested := Some(o.now),
        confirmationToken := Some(o.token));
      var mail := Mail(cfg.inviteTemplate, cfg.resetRoute, invited.email, invited.confirmationToken);
      var echoed := if cfg.dev then invited.confirmationToken else None;
      Ok(Outcome(s[FreshId(s) := invited], Reply(Some(InviteSuccess), None, echoed), Some(mail)))
  }

  /** The user was invited by the principal with id `inviter`. */
  predicate IsFriendOf(u: User, inviter: UserId) {
    InvitedBy(u) == Some(IdText(inviter))
  }

  /** `UserController::friends`: the public claims of every user the principal invited. */
  function Friends(s: Store, actor: Option<UserId>): (r: Result<map<UserId, ClaimMap>, ErrorKind>)
    ensures r.Ok? <==> Authenticated(s, actor)
    ensures r.Err? ==> r.error == Unauthenticated
    ensures r.Ok? ==> forall k :: k in r.value <==> k in s && IsFriendOf(s[k], actor.value)
    ensures r.Ok? ==> forall k :: k in r.value ==> Decode(r.value[k]) == Some(Getters(Some(k), s[k]))
  {
    if Authenticated(s, actor) then
      Ok(map k | k in s && IsFriendOf(s[k], actor.value) :: JsonSerialize(Some(k), s[k]))
    else Err(Unauthenticated)
  }

  /** `UserController::forget`. */
  function Forget(cfg: Config, svc: Services, s: Store, email: Option<string>, o: Draw)
    : (r: Result<Outcome, ErrorKind>)
    ensures !cfg.forgetEnabled ==> r == Err(FeatureOff(Forgetting))
    ensures cfg.forgetEnabled && !Filled(email) ==> r == Err(InvalidArgument(EmailMissing))
    ensures cfg.forgetEnabled && Filled(email) && !svc.isEmail(email.value) ==> r == Err(InvalidArgument(EmailInvalid))
    ensures r == Err(Unknown) <==>
      cfg.forgetEnabled && Filled(email) && svc.isEmail(email.value) && !EmailTaken(s, email.value)
    ensures r.Ok? <==> cfg.forgetEnabled && Filled(email) && svc.isEmail(email.value) && EmailTaken(s, email.value)
    ensures r.Ok? ==>
      var out, id := r.value, FindByEmail(s, email.value).value;
      && Rewritten(s, out.store, id)
      && out.store[id] == s[id].(confirmationToken := Some(o.token), timePasswordResetRequested := Some(o.now))
      && out.mail == Some(Mail(cfg.forgetTemplate, cfg.resetRoute, s[id].email, Some(o.token)))
      && out.reply.message == Some(ForgetSuccess)
      && out.reply.bearer == None
      && out.reply.token == (if cfg.dev then Some(o.token) else None)
  {
    if !cfg.forgetEnabled then Err(FeatureOff(Forgetting))
    else if !Filled(email) then Err(InvalidArgument(EmailMissing))
    else if !svc.isEmail(email.value) then Err(InvalidArgument(EmailInvalid))
    else match FindByEmail(s, email.value)
      case None => Err(Unknown)
      case Some(id) =>
        var u := s[id].(timePasswordResetRequested := Some(o.now), confirmationToken := Some(o.token));
        var mail := Mail(cfg.forgetTemplate, cfg.resetRoute, u.email, u.confirmationToken);
        var echoed := if cfg.dev then u.confirmationToken else None;
        Ok(Outcome(s[id := u], Reply(Some(ForgetSuccess), None, echoed), Some(mail)))
  }

  /** A request field as PHP passes it on to the encoder: null reads as the empty string. */
  function Raw(f: Option<string>): string {
    f.GetOr("")
  }

  /** `UserController::reset`, for the token in the route and the posted password. */
  function Reset(cfg: Config, svc: Services, s: Store, token: string, password: Option<string>, o: Draw)
    : (r: Result<Outcome, ErrorKind>)
    ensures !cfg.forgetEnabled ==> r == Err(FeatureOff(Resetting))
    ensures r == Err(InvalidArgument(TokenInvalid)) <==> cfg.forgetEnabled && TokenFresh(s, token)
    ensures r == Err(Expired) <==>
      cfg.forgetEnabled && FindByToken(s, token).Some?
      && svc.expired(s[FindByToken(s, token).value].timePasswordResetRequested, o.now)
    ensures r.Ok? <==>
      cfg.forgetEnabled && FindByToken(s, token).Some?
      && !svc.expired(s[FindByToken(s, token).value].timePasswordResetRequested, o.now)
    ensures r.Ok? ==>
      var out, id := r.value, FindByToken(s, token).value;
      && Rewritten(s, out.store, id)
      && s[id].confirmationToken == Some(token)
      && out.store[id] == s[id].(
           enabled := true,
           confirmationToken := None,
           timePasswordResetRequested := None,
           password := svc.encode(Raw(password), s[id].salt))
      && out.reply == Reply(Some(ResetSuccess), Some(Serialize(Some(id), out.store[id])), None)
      && out.mail == None
  {
    if !cfg.forgetEnabled then Err(FeatureOff(Resetting))
    else match FindByToken(s, token)
      case None => Err(InvalidArgument(TokenInvalid))
      case Some(id) =>
        var u := s[id];
        if svc.expired(u.timePasswordResetRequested, o.now) then Err(Expired)
        else
          var consumed := u.(enabled := true, timePasswordResetRequested := None, confirmationToken := None);
          var withPassword := consumed.(password := svc.encode(Raw(password), consumed.salt));
          Ok(Outcome(s[id := withPassword], Reply(Some(ResetSuccess), Some(Serialize(Some(id), withPassword)), None), None))
  }

  /** The optional fields of a profile update. */
  datatype Patch = Patch(
    email: Option<string>,
    password: Option<string>,
    name: Option<string>,
    username: Option<string>,
    customFields: Option<map<string, string>>)

  /** The route's `{id}` is falsy (absent or 0): the principal updates itself. */
  predicate SelfTarget(target: Option<int>) {
    target.None? || target.value == 0
  }

  /**
    Whose profile `update` edits: the principal itself, or for an
    administrator the user with the given id (None when no user has it).
   */
  function Resolve(cfg: Config, s: Store, actor: Option<UserId>, target: Option<int>)
    : (r: Result<Option<UserId>, ErrorKind>)
    ensures !Authenticated(s, actor) ==> r == Err(Unauthenticated)
    ensures SelfTarget(target) && Authenticated(s, actor) ==> r == Ok(actor)
    ensures !SelfTarget(target) && Authenticated(s, actor) && !Granted(cfg, s, actor, RoleAdmin) ==> r == Err(Forbidden)
    ensures !SelfTarget(target) && Granted(cfg, s, actor, RoleAdmin) ==>
      r == Ok(if target.value in s then target else None)
  {
    if !Authenticated(s, actor) then Err(Unauthenticated)
    else if SelfTarget(target) then Ok(actor)
    else if Granted(cfg, s, actor, RoleAdmin) then
      Ok(if target.value in s then target else None)
    else Err(Forbidden)
  }

  /** The update carries an email that will be applied (present and well-formed). */
  predicate NewEmail(svc: Services, p: Patch) {
    Filled(p.email) && svc.isEmail(p.email.value)
  }

  /** The sparse patch applied to one user; absent fields leave the user's fields as they are. */
  function Patched(cfg: Config, svc: Services, u: User, p: Patch): (v: User)
    ensures v.roles == u.roles && v.enabled == u.enabled && v.salt == u.salt
    ensures v.confirmationToken == u.confirmationToken
    ensures v.timePasswordResetRequested == u.timePasswordResetRequested
    ensures v.email == (if NewEmail(svc, p) then p.email.value else u.email)
    ensures v.password == (if Filled(p.password) then svc.encode(p.password.value, u.salt) else u.password)
    ensures v.username == (if Filled(p.username) && cfg.usernameRequired then p.username.value else u.username)
    ensures v.name == (if Filled(p.name) then p.name.value else u.name)
    ensures v.customFields ==
      (if p.customFields.Some? && p.customFields.value != map[] then p.customFields.value else u.customFields)
  {
    var u1 := if NewEmail(svc, p) then u.(email := p.email.value) else u;
    var u2 := if Filled(p.password) then u1.(password := svc.encode(p.password.value, u1.salt)) else u1;
    var u3 := if Filled(p.username) && cfg.usernameRequired then u2.(username := p.username.value) else u2;
    var u4 := if Filled(p.name) then u3.(name := p.name.value) else u3;
    if p.customFields.Some? && p.customFields.value != map[] then u4.(customFields := p.customFields.value) else u4
  }

  /** `UserController::update`, for the route's optional `{id}` and the posted fields. */
  function Update(cfg: Config, svc: Services, s: Store, actor: Option<UserId>, target: Option<int>, p: Patch)
    : (r: Result<Outcome, ErrorKind>)
    ensures !Authenticated(s, actor) ==> r == Err(Unauthenticated)
    ensures !SelfTarget(target) && Authenticated(s, actor) && !Granted(cfg, s, actor, RoleAdmin) ==> r == Err(Forbidden)
    ensures Resolve(cfg, s, actor, target).Ok? && NewEmail(svc, p) && EmailTaken(s, p.email.value) ==> r == Err(Used)
    ensures Resolve(cfg, s, actor, target) == Ok(None) && !(NewEmail(svc, p) && EmailTaken(s, p.email.value)) ==>
      r == Err(NoSuchTarget)
    ensures r.Ok? <==>
      && Resolve(cfg, s, actor, target).Ok?
      && Resolve(cfg, s, actor, target).value.Some?
      && !(NewEmail(svc, p) && EmailTaken(s, p.email.value))
    ensures r.Ok? ==>
      var out, id := r.value, Resolve(cfg, s, actor, target).value.value;
      && Rewritten(s, out.store, id)
      && out.store[id] == Patched(cfg, svc, s[id], p)
      && out.reply == Reply(None, Some(Serialize(Some(id), out.store[id])), None)
      && out.mail == None
  {
    match Resolve(cfg, s, actor, target)
    case Err(e) => Err(e)
    case Ok(t) =>
      if NewEmail(svc, p) && FindByEmail(s, p.email.value).Some? then Err(Used)
      else match t
        // `findOneBy` found no user: the first method call on it fails.
        case None => Err(NoSuchTarget)
        case Some(id) =>
          var u := Patched(cfg, svc, s[id], p);
          Ok(Outcome(s[id := u], Reply(None, Some(Serialize(Some(id), u)), None), None))
  }
}

=== FILE: lifecycle.dfy ===
/**
  Properties that relate several handler calls: the store invariants every
  handler keeps, single use of reset tokens, and the register / login /
  invite / friends / forget / reset / update flows fitting together.
 */
module Lifecycle {
  import opened Common
  import opened Roles
  import opened Users
  import opened Store
  import opened Controller

  /** The password encoder accepts what it encoded: verification of `encode(p, salt)` with `p` and `salt` succeeds. */
  ghost predicate Consistent(svc: Services) {
    forall p, salt :: svc.passwordValid(svc.encode(p, salt), p, salt)
  }

  /** Inserting a user whose email is new and whose token is fresh keeps the store well formed. */
  lemma InsertKeepsWellFormed(s: Store, id: UserId, u: User)
    requires WellFormed(s) && id !in s
    requires !EmailTaken(s, u.email)
    requires u.confirmationToken.Some? <==> u.timePasswordResetRequested.Some?
    requires u.confirmationToken.Some? ==> TokenFresh(s, u.confirmationToken.value)
    ensures WellFormed(s[id := u])
  {
  }

  /** Rewriting one user, keeping its email unless the new one is unused and issuing only fresh tokens, keeps the store well formed. */
  lemma RewriteKeepsWellFormed(s: Store, id: UserId, u: User)
    requires WellFormed(s) && id in s
    requires u.email == s[id].email || !EmailTaken(s, u.email)
    requires u.confirmationToken.Some? <==> u.timePasswordResetRequested.Some?
    requires u.confirmationToken.Some? && u.confirmationToken != s[id].confirmationToken ==>
      TokenFresh(s, u.confirmationToken.value)
    ensures WellFormed(s[id := u])
  {
  }

  lemma RegisterKeepsWellFormed(cfg: Config, svc: Services, s: Store, email: Option<string>, password: Option<string>, o: Draw)
    requires WellFormed(s) && TokenFresh(s, o.token)
    requires Register(cfg, svc, s, email, password, o).Ok?
    ensures WellFormed(Register(cfg, svc, s, email, password, o).value.store)
  {
    var s', id := Register(cfg, svc, s, email, password, o).value.store, FreshId(s);
    assert s' == s[id := s'[id]];
    InsertKeepsWellFormed(s, id, s'[id]);
  }

  lemma InviteKeepsWellFormed(cfg: Config, svc: Services, s: Store, actor: Option<UserId>, email: Option<string>, o: Draw)
    requires WellFormed(s) && TokenFresh(s, o.token)
    requires Invite(cfg, svc, s, actor, email, o).Ok?
    ensures WellFormed(Invite(cfg, svc, s, actor, email, o).value.store)
  {
    var s', id := Invite(cfg, svc, s, actor, email, o).value.store, FreshId(s);
    assert s' == s[id := s'[id]];
    InsertKeepsWellFormed(s, id, s'[id]);
  }

  lemma ForgetKeepsWellFormed(cfg: Config, svc: Services, s: Store, email: Option<string>, o: Draw)
    requires WellFormed(s) && TokenFresh(s, o.token)
    requires Forget(cfg, svc, s, email, o).Ok?
    ensures WellFormed(Forget(cfg, svc, s, email, o).value.store)
  {
    var s', id := Forget(cfg, svc, s, email, o).value.store, FindByEmail(s, email.value).value;
    assert s' == s[id := s'[id]];
    RewriteKeepsWellFormed(s, id, s'[id]);
  }

  lemma ResetKeepsWellFormed(cfg: Config, svc: Services, s: Store, token: string, password: Option<string>, o: Draw)
    requires WellFormed(s)
    requires Reset(cfg, svc, s, token, password, o).Ok?
    ensures WellFormed(Reset(cfg, svc, s, token, password, o).value.store)
  {
    var s', id := Reset(cfg, svc, s, token, password, o).value.store, FindByToken(s, token).value;
    assert s' == s[id := s'[id]];
    RewriteKeepsWellFormed(s, id, s'[id]);
  }

  lemma UpdateKeepsWellFormed(cfg: Config, svc: Services, s: Store, actor: Option<UserId>, target: Option<int>, p: Patch)
    requires WellFormed(s)
    requires Update(cfg, svc, s, actor, target, p).Ok?
    ensures WellFormed(Update(cfg, svc, s, actor, target, p).value.store)
  {
    var s', id := Update(cfg, svc, s, actor, target, p).value.store, Resolve(cfg, s, actor, target).value.value;
    assert s' == s[id := s'[id]];
    RewriteKeepsWellFormed(s, id, s'[id]);
  }

  /** A reset token works once: after a successful reset the same token is unknown. */
  lemma ResetTokenSingleUse(cfg: Config, svc: Services, s: Store, token: string, password: Option<string>, o: Draw,
                            password': Option<string>, o': Draw)
    requires WellFormed(s)
    requires Reset(cfg, svc, s, token, password, o).Ok?
    ensures Reset(cfg, svc, Reset(cfg, svc, s, token, password, o).value.store, token, password', o')
      == Err(InvalidArgument(TokenInvalid))
  {
    var s', id := Reset(cfg, svc, s, token, password, o).value.store, FindByToken(s, token).value;
    forall k | k in s'
      ensures s'[k].confirmationToken != Some(token)
    {
      if k != id {
        assert s'[k] == s[k];
      }
    }
  }

  /** The lookup by email finds the one user holding it, in a well-formed store. */
  lemma FindByEmailUnique(s: Store, id: UserId)
    requires WellFormed(s) && id in s
    ensures FindByEmail(s, s[id].email) == Some(id)
  {
  }

  /** After inserting a user with an unused email, the lookup by that email finds the new user. */
  lemma FindInserted(s: Store, id: UserId, u: User)
    requires id !in s && !EmailTaken(s, u.email)
    ensures FindByEmail(s[id := u], u.email) == Some(id)
  {
    var s' := s[id := u];
    assert id in s' && s'[id].email == u.email;
  }

  /** The lookup by token finds the one user holding it, in a well-formed store. */
  lemma FindByTokenUnique(s: Store, id: UserId, t: string)
    requires WellFormed(s) && id in s && s[id].confirmationToken == Some(t)
    ensures FindByToken(s, t) == Some(id)
  {
  }

  /**
    The forget / reset cycle: after `forget` issues a token, a reset with
    that token before it expires succeeds, and the user can then log in with
    the new password, whether or not the account was enabled before.
   */
  lemma ForgetResetLogin(cfg: Config, svc: Services, s: Store, email: Option<string>, o: Draw,
                         password: Option<string>, o': Draw)
    requires WellFormed(s) && TokenFresh(s, o.token) && Consistent(svc)
    requires Forget(cfg, svc, s, email, o).Ok?
    requires !svc.expired(Some(o.now), o'.now)
    requires Filled(password)
    ensures
      var s1 := Forget(cfg, svc, s, email, o).value.store;
      && Reset(cfg, svc, s1, o.token, password, o').Ok?
      && Login(svc, Reset(cfg, svc, s1, o.token, password, o').value.store, email, password).Ok?
  {
    var id := FindByEmail(s, email.value).value;
    var s1 := Forget(cfg, svc, s, email, o).value.store;
    ForgetKeepsWellFormed(cfg, svc, s, email, o);
    FindByTokenUnique(s1, id, o.token);
    var s2 := Reset(cfg, svc, s1, o.token, password, o').value.store;
    ResetKeepsWellFormed(cfg, svc, s1, o.token, password, o');
    FindByEmailUnique(s2, id);
    assert s2[id].email == email.value;
    assert svc.passwordValid(svc.encode(password.value, s2[id].salt), password.value, s2[id].salt);
  }

  /**
    Direct-activation registration: the user can log in at once with the
    registered password, and the bearer token in the reply carries the
    registered email and ROLE_REGISTERED (and no id: it is signed before the
    insert).
   */
  lemma RegisterThenLogin(cfg: Config, svc: Services, s: Store, email: Option<string>, password: Option<string>, o: Draw)
    requires Consistent(svc)
    requires RegisterAdmits(cfg, svc, s, email, password) && !cfg.registrationsConfirm
    ensures
      var out := Register(cfg, svc, s, email, password, o).value;
      && out.reply.bearer.Some?
      && Decode(out.reply.bearer.value) == Some(Claims(None, {RoleRegistered}, email.value, true))
      && Login(svc, out.store, email, password).Ok?
  {
    var out, id := Register(cfg, svc, s, email, password, o).value, FreshId(s);
    assert out.store == s[id := out.store[id]];
    FindInserted(s, id, out.store[id]);
    assert svc.passwordValid(svc.encode(password.value, o.salt), password.value, o.salt);
  }

  /** Confirm-mode registration: the right password still cannot log in until the account is confirmed. */
  lemma ConfirmModeBlocksLogin(cfg: Config, svc: Services, s: Store, email: Option<string>, password: Option<string>, o: Draw)
    requires Consistent(svc)
    requires RegisterAdmits(cfg, svc, s, email, password) && cfg.registrationsConfirm
    ensures Login(svc, Register(cfg, svc, s, email, password, o).value.store, email, password) == Err(Disabled)
  {
    var out, id := Register(cfg, svc, s, email, password, o).value, FreshId(s);
    assert out.store == s[id := out.store[id]];
    FindInserted(s, id, out.store[id]);
    assert svc.passwordValid(svc.encode(password.value, o.salt), password.value, o.salt);
  }

  /** An email that registration or invitation created cannot be registered or invited again. */
  lemma CreatedEmailIsUsed(cfg: Config, svc: Services, s: Store, email: Option<string>, password: Option<string>, o: Draw,
                           actor: Option<UserId>, password': Option<string>, o': Draw)
    requires Register(cfg, svc, s, email, password, o).Ok?
    ensures
      var s' := Register(cfg, svc, s, email, password, o).value.store;
      && Register(cfg, svc, s', email, password', o') == (if Filled(password') then Err(Used) else Err(InvalidArgument(EmailOrPasswordMissing)))
      && (cfg.inviteEnabled && Granted(cfg, s', actor, RoleAllowInvite) ==> Invite(cfg, svc, s', actor, email, o') == Err(Used))
  {
    var s' := Register(cfg, svc, s, email, password, o).value.store;
    assert s'[FreshId(s)].email == email.value;
  }

  /** A disabled account with a wrong password is told Mismatch, never Disabled. */
  lemma DisabledWrongPasswordIsMismatch(svc: Services, s: Store, email: Option<string>, password: Option<string>, id: UserId)
    requires WellFormed(s) && id in s && email == Some(s[id].email)
    requires Filled(email) && Filled(password) && svc.isEmail(email.value)
    requires !s[id].enabled && !svc.passwordValid(s[id].password, password.value, s[id].salt)
    ensures Login(svc, s, email, password) == Err(Mismatch)
  {
    FindByEmailUnique(s, id);
  }

  /** The user an invitation creates is listed among the inviter's friends. */
  lemma InviteeIsFriend(cfg: Config, svc: Services, s: Store, actor: Option<UserId>, email: Option<string>, o: Draw)
    requires Invite(cfg, svc, s, actor, email, o).Ok?
    ensures
      var s' := Invite(cfg, svc, s, actor, email, o).value.store;
      && Friends(s', actor).Ok?
      && FreshId(s) in Friends(s', actor).value
      && Decode(Friends(s', actor).value[FreshId(s)]) == Some(Claims(Some(FreshId(s)), {RoleInvited}, email.value, false))
  {
    var s' := Invite(cfg, svc, s, actor, email, o).value.store;
    assert InvitedBy(s'[FreshId(s)]) == Some(IdText(actor.value));
  }

  /**
    Under the tests' role hierarchy an invited user may not invite: the
    handler refuses with Forbidden whatever email is posted.
   */
  lemma InvitedUserCannotInvite(cfg: Config, svc: Services, s: Store, actor: UserId, email: Option<string>, o: Draw)
    requires cfg.inviteEnabled && cfg.hierarchy == TestHierarchy
    requires actor in s && s[actor].roles == {RoleInvited}
    ensures Invite(cfg, svc, s, Some(actor), email, o) == Err(Forbidden)
  {
    InvitedMayNotInvite();
  }

  /** Under the tests' role hierarchy a registered user passes the invitation check. */
  lemma RegisteredUserMayInvite(cfg: Config, svc: Services, s: Store, actor: UserId, email: Option<string>, o: Draw)
    requires cfg.inviteEnabled && cfg.hierarchy == TestHierarchy
    requires actor in s && RoleRegistered in s[actor].roles
    ensures Invite(cfg, svc, s, Some(actor), email, o) != Err(Forbidden)
  {
    RegisteredMayInvite();
    GrantMonotone(TestHierarchy, {RoleRegistered}, s[actor].roles, RoleAllowInvite);
  }

  /** An update with no field set rewrites nothing. */
  lemma EmptyPatchChangesNothing(cfg: Config, svc: Services, s: Store, actor: Option<UserId>, target: Option<int>)
    requires Update(cfg, svc, s, actor, target, Patch(None, None, None, None, None)).Ok?
    ensures Update(cfg, svc, s, actor, target, Patch(None, None, None, None, None)).value.store == s
  {
    var out := Update(cfg, svc, s, actor, target, Patch(None, None, None, None, None)).value;
    var id := Resolve(cfg, s, actor, target).value.value;
    assert out.store[id] == s[id];
  }

  /** Posting one's own current email is refused as Used: the uniqueness check does not exempt the target. */
  lemma OwnEmailIsUsed(cfg: Config, svc: Services, s: Store, actor: UserId, p: Patch)
    requires actor in s && p.email == Some(s[actor].email) && NewEmail(svc, p)
    ensures Update(cfg, svc, s, Some(actor), None, p) == Err(Used)
  {
  }

  /**
    An administrator may change another user's email: the update succeeds
    and the target's stored email is the new one.
   */
  lemma AdminChangesOthersEmail(cfg: Config, svc: Services, s: Store, actor: UserId, target: UserId, email: string)
    requires Granted(cfg, s, Some(actor), RoleAdmin) && target in s && target != 0
    requires Filled(Some(email)) && svc.isEmail(email) && !EmailTaken(s, email)
    ensures
      var r := Update(cfg, svc, s, Some(actor), Some(target), Patch(Some(email), None, None, None, None));
      r.Ok? && r.value.store[target].email == email
  {
  }
}

=== FILE: messages.dfy ===
/**
  The English message catalog and the message each error kind is thrown
  with. The handlers throw `new X($language::KEY)`; a KEY the catalog does
  not define is itself an error, raised instead of X.
 */
module Messages {
  import opened Common
  import opened Roles
  import opened Users
  import opened Store
  import C = Controller

  /** The catalog constants the controller names, including two it names but no catalog defines. */
  datatype Key =
    | RegistrationsDisabled | RegisterSuccess
    | InvitationsDisabled | InvitationsForbidden | InvitationsSuccess
    | ForgetDisabled | ForgetSuccess
    | ResetDisabled | ResetSuccess
    | EmailMissing | EmailOrPasswordMissing | EmailInvalid | EmailAlreadyRegistered | EmailUnknown
    | PasswordInvalid | AccountDisabled | TokenInvalid | TokenExpired
    | EmailUsed | Unauthorized

  /** The English catalog: the text of each constant it defines. */
  function English(k: Key): (text: Option<string>)
    ensures text.None? <==> k == EmailUsed || k == Unauthorized
    ensures text.Some? ==> text.value != ""
  {
    match k
    case RegistrationsDisabled => Some("Registrations are disabled")
    case RegisterSuccess => Some("Account created")
    case InvitationsDisabled => Some("Invitations are disabled")
    case InvitationsForbidden => Some("You're not allowed to send invitations")
    case InvitationsSuccess => Some("The user should receive an email soon with a confirmation of the invitation")
    case ForgetDisabled => Some("Forget function are disabled")
    case ForgetSuccess => Some("Email to reset the password sent")
    case ResetDisabled => Some("Reset function are disabled")
    case ResetSuccess => Some("Password reseted")
    case EmailMissing => Some("Email missing")
    case EmailOrPasswordMissing => Some("Email or password missing")
    case EmailInvalid => Some("Email not valid")
    case EmailAlreadyRegistered => Some("Email already registered")
    case EmailUnknown => Some("Email not registered")
    case PasswordInvalid => Some("Invalid password")
    case AccountDisabled => Some("Account disabled")
    case TokenInvalid => Some("Token invalid")
    case TokenExpired => Some("Token expired")
    case EmailUsed => None
    case Unauthorized => None
  }

  /** What a `throw new X($language::key)` raises: X with the text, or an undefined-constant error. */
  datatype Raised = Thrown(kind: C.ErrorKind, message: string) | UndefinedConstant(key: Key)

  function Raise(kind: C.ErrorKind, key: Key): (r: Raised)
    ensures r.Thrown? <==> English(key).Some?
    ensures r.Thrown? ==> r.kind == kind && r.message == English(key).value
    ensures r.UndefinedConstant? ==> r.key == key
  {
    match English(key)
    case Some(text) => Thrown(kind, text)
    case None => UndefinedConstant(key)
  }

  /** The handler a throw site belongs to. */
  datatype Handler = OnRegister | OnLogin | OnInvite | OnForget | OnReset | OnUpdate

  /**
    The key handler `h`, as written, throws error kind `e` with: every Used
    branch reads EMAIL_USED, and update's Forbidden branch reads UNAUTHORIZED.
   */
  function KeyAsWritten(h: Handler, e: C.ErrorKind): Option<Key> {
    if e.Used? then Some(EmailUsed)
    else if h == OnUpdate && e.Forbidden? then Some(Unauthorized)
    else MessageKey(e)
  }

  /**
    As written, registering an email that is already taken raises an
    undefined-constant error instead of the Used exception.
   */
  lemma UsedRaisesUndefinedConstant(cfg: C.Config, svc: C.Services, s: Store, email: Option<string>,
                                    password: Option<string>, o: C.Draw)
    requires cfg.registrationsEnabled && C.Filled(email) && C.Filled(password)
    requires svc.isEmail(email.value) && EmailTaken(s, email.value)
    ensures
      var r := C.Register(cfg, svc, s, email, password, o);
      && r.Err?
      && KeyAsWritten(OnRegister, r.error).Some?
      && Raise(r.error, KeyAsWritten(OnRegister, r.error).value) == UndefinedConstant(EmailUsed)
  {
  }

  /**
    As written, a logged-in user who is not an administrator and names
    another profile to update gets an undefined-constant error, not the
    authorization exception.
   */
  lemma UnauthorizedRaisesUndefinedConstant(cfg: C.Config, svc: C.Services, s: Store, actor: Option<UserId>,
                                            target: Option<int>, p: C.Patch)
    requires C.Authenticated(s, actor) && !C.SelfTarget(target) && !C.Granted(cfg, s, actor, RoleAdmin)
    ensures
      var r := C.Update(cfg, svc, s, actor, target, p);
      && r.Err?
      && KeyAsWritten(OnUpdate, r.error).Some?
      && Raise(r.error, KeyAsWritten(OnUpdate, r.error).value) == UndefinedConstant(Unauthorized)
  {
  }

  /**
    The key each error kind is thrown with once the Used branches read
    EMAIL_ALREADY_REGISTERED. Every kind thrown with a message then raises
    its own exception with a text from the catalog; the Used kind does so
    with "Email already registered". Forbidden carries the one
    authorization text the catalog defines; the two kinds without a key are
    not thrown with a catalog text.
   */
  function MessageKey(e: C.ErrorKind): (k: Option<Key>)
    ensures k.Some? ==> Raise(e, k.value).Thrown? && Raise(e, k.value).kind == e
    ensures e == C.Used ==> k == Some(EmailAlreadyRegistered)
    ensures e == C.Used ==> English(k.value) == Some("Email already registered")
    // the catalog constant each other kind is thrown with, as at its throw sites
    ensures e == C.FeatureOff(C.Registrations) ==> k == Some(RegistrationsDisabled)
    ensures e == C.FeatureOff(C.Invitations) ==> k == Some(InvitationsDisabled)
    ensures e == C.FeatureOff(C.Forgetting) ==> k == Some(ForgetDisabled)
    ensures e == C.FeatureOff(C.Resetting) ==> k == Some(ResetDisabled)
    ensures e == C.InvalidArgument(C.EmailOrPasswordMissing) ==> k == Some(Key.EmailOrPasswordMissing)
    ensures e == C.InvalidArgument(C.EmailMissing) ==> k == Some(Key.EmailMissing)
    ensures e == C.InvalidArgument(C.EmailInvalid) ==> k == Some(Key.EmailInvalid)
    ensures e == C.InvalidArgument(C.TokenInvalid) ==> k == Some(Key.TokenInvalid)
    ensures e == C.Unknown ==> k == Some(EmailUnknown)
    ensures e == C.Mismatch ==> k == Some(PasswordInvalid)
    ensures e == C.Disabled ==> k == Some(AccountDisabled)
    ensures e == C.Expired ==> k == Some(TokenExpired)
    ensures e == C.Forbidden ==> k == Some(InvitationsForbidden)
    ensures k.None? <==> e.Unauthenticated? || e.NoSuchTarget?
  {
    match e
    case FeatureOff(f) =>
      Some(match f
        case Registrations => RegistrationsDisabled
        case Invitations => InvitationsDisabled
        case Forgetting => ForgetDisabled
        case Resetting => ResetDisabled)
    case InvalidArgument(reason) =>
      Some(match reason
        case EmailOrPasswordMissing => Key.EmailOrPasswordMissing
        case EmailMissing => Key.EmailMissing
        case EmailInvalid => Key.EmailInvalid
        case TokenInvalid => Key.TokenInvalid)
    case Used => Some(EmailAlreadyRegistered)
    case Unknown => Some(EmailUnknown)
    case Mismatch => Some(PasswordInvalid)
    case Disabled => Some(AccountDisabled)
    case Expired => Some(TokenExpired)
    case Forbidden => Some(InvitationsForbidden)
    case Unauthenticated => None
    case NoSuchTarget => None
  }
}

=== FILE: options.dfy ===
/**
  PHP option arrays as trees, and `array_replace_recursive`.

  Option arrays nest: a value is a scalar or a string-keyed array of values.
  Reading a missing key (or indexing into a scalar) yields null, and
  conditions on option values use PHP truthiness.
 */
module Options {
  import opened Common

  /** An option value: null, a boolean, an integer, a string or a nested array. */
  datatype Opt = Null | Bool(b: bool) | Int(i: int) | Text(s: string) | Node(children: map<string, Opt>)

  /** The value at `path`, if every key on the way exists in a nested array. */
  function Lookup(t: Opt, path: seq<string>): Option<Opt>
    decreases |path|
  {
    if |path| == 0 then Some(t)
    else if t.Node? && path[0] in t.children then Lookup(t.children[path[0]], path[1..])
    else None
  }

  /** `$opts['a']['b']…` as PHP reads it: null when the path does not exist. */
  function At(t: Opt, path: seq<string>): Opt {
    Lookup(t, path).GetOr(Null)
  }

  /** PHP truthiness of an option value. */
  predicate Truthy(t: Opt) {
    match t
    case Null => false
    case Bool(b) => b
    case Int(i) => i != 0
    case Text(s) => s != "" && s != "0"
    case Node(c) => c != map[]
  }

  /**
    `array_replace_recursive(base, over)`: every key of `over` replaces the
    same key of `base`, except that two nested arrays are merged the same
    way, key by key; keys only `base` has are kept.
   */
  function ReplaceRecursive(base: Opt, over: Opt): (r: Opt)
    ensures !(base.Node? && over.Node?) ==> r == over
    ensures base.Node? && over.Node? ==> r.Node? && r.children.Keys == base.children.Keys + over.children.Keys
    ensures base.Node? && over.Node? ==>
      forall k :: k in base.children && k !in over.children ==> r.children[k] == base.children[k]
    ensures base.Node? && over.Node? ==>
      forall k :: k in over.children && !(k in base.children && base.children[k].Node? && over.children[k].Node?) ==>
        r.children[k] == over.children[k]
    decreases over
  {
    if base.Node? && over.Node? then
      Node(map k | k in base.children.Keys + over.children.Keys ::
        if k in over.children then
          (if k in base.children then ReplaceRecursive(base.children[k], over.children[k]) else over.children[k])
        else base.children[k])
    else over
  }

  /**
    Nothing on `path` is specified by `over`: walking the path, `over` stops
    having the key while both sides are still nested arrays.
   */
  predicate Silent(base: Opt, over: Opt, path: seq<string>)
    decreases |path|
  {
    && |path| > 0
    && base.Node? && over.Node?
    && (path[0] !in over.children
        || (path[0] in base.children && Silent(base.children[path[0]], over.children[path[0]], path[1..])))
  }

  /** A scalar the user specifies, at any depth, is the merged value there. */
  lemma {:induction false} OverrideWins(base: Opt, over: Opt, path: seq<string>, v: Opt)
    requires Lookup(over, path) == Some(v) && !v.Node?
    ensures Lookup(ReplaceRecursive(base, over), path) == Some(v)
    decreases |path|
  {
    if |path| > 0 && base.Node? && over.Node? {
      var k := path[0];
      var merged := ReplaceRecursive(base, over);
      assert merged.children[k] ==
        (if k in base.children then ReplaceRecursive(base.children[k], over.children[k]) else over.children[k]);
      if k in base.children {
        OverrideWins(base.children[k], over.children[k], path[1..], v);
      }
    }
  }

  /** A default the user leaves unspecified, at any depth, survives the merge. */
  lemma {:induction false} DefaultKept(base: Opt, over: Opt, path: seq<string>)
    requires Silent(base, over, path)
    ensures Lookup(ReplaceRecursive(base, over), path) == Lookup(base, path)
    decreases |path|
  {
    var k := path[0];
    var merged := ReplaceRecursive(base, over);
    if k in over.children {
      DefaultKept(base.children[k], over.children[k], path[1..]);
    } else if k in base.children {
      assert merged.children[k] == base.children[k];
    } else {
      assert k !in merged.children;
    }
  }

  /** Replacing with an empty array changes nothing. */
  lemma ReplaceWithNothing(base: Opt)
    requires base.Node?
    ensures ReplaceRecursive(base, Node(map[])) == base
  {
    assert ReplaceRecursive(base, Node(map[])).children == base.children;
  }

  /** Applying the same overrides twice is the same as applying them once. */
  lemma {:induction false} ReplaceIdempotent(base: Opt, over: Opt)
    ensures ReplaceRecursive(ReplaceRecursive(base, over), over) == ReplaceRecursive(base, over)
    decreases over
  {
    var once := ReplaceRecursive(base, over);
    if base.Node? && over.Node? {
      var twice := ReplaceRecursive(once, over);
      forall k | k in over.children && k in base.children
        ensures twice.children[k] == once.children[k]
      {
        ReplaceIdempotent(base.children[k], over.children[k]);
      }
      forall k | k in over.children && k !in base.children
        ensures twice.children[k] == once.children[k]
      {
        ReplaceSelf(over.children[k]);
      }
      assert twice.children == once.children;
    } else {
      ReplaceSelf(over);
    }
  }

  /** Merging a tree over itself gives the tree back. */
  lemma {:induction false} ReplaceSelf(t: Opt)
    ensures ReplaceRecursive(t, t) == t
    decreases t
  {
    if t.Node? {
      forall k | k in t.children
        ensures ReplaceRecursive(t, t).children[k] == t.children[k]
      {
        ReplaceSelf(t.children[k]);
      }
      assert ReplaceRecursive(t, t).children == t.children;
    }
  }
}

=== FILE: provider.dfy ===
/**
  The service provider: wiring-time checks and option defaults
  (`UserProvider::register`) and the route table (`UserProvider::connect`).
 */
module Provider {
  import opened Common
  import opened Options
  import Controller

  /** What the application holds when the provider is registered. */
  datatype Container = Container(
    hasJwtEncoder: bool,
    hasDb: bool,
    hasVoters: bool,
    hasMailer: bool,
    hasUrlGenerator: bool,
    hasTwig: bool,
    userOptions: Option<map<string, Opt>>,
    host: string)

  /** The providers whose services the module depends on. */
  datatype Dependency =
    | SecurityJwtProvider
    | DoctrineProvider
    | SecurityProvider
    | SwiftMailerProvider
    | UrlGeneratorProvider
    | TwigProvider

  /** A wiring failure: a RuntimeException for a missing provider, a LogicException for a feature that needs the mailer. */
  datatype Failure = MissingDependency(dependency: Dependency) | MailerNeeded(feature: Controller.Feature)

  /** The options handed to the parent user library. */
  datatype SimpleUserOptions = SimpleUserOptions(
    mailerEnabled: bool,
    userClass: Opt,
    userTableName: Opt,
    userCustomFieldsTableName: Opt)

  datatype Wiring = Wiring(jwtOptions: Opt, userOptions: SimpleUserOptions)

  const EnglishCatalog := "SimpleUser\\JWT\\Languages\\English"

  /** The default `user.jwt.options`; `host` is the request's host, or the machine's name. */
  function Defaults(host: string): (d: Opt)
    ensures d.Node?
    ensures d.children.Keys == {"class", "controller", "language", "registrations", "invite", "forget", "tables", "mailer"}
  {
    Node(map[
      "class" := Text("SimpleUser\\JWT\\User"),
      "controller" := Text("SimpleUser\\JWT\\UserController"),
      "language" := Text(EnglishCatalog),
      "registrations" := Node(map["enabled" := Bool(true), "confirm" := Bool(false)]),
      "invite" := Node(map["enabled" := Bool(false)]),
      "forget" := Node(map["enabled" := Bool(false)]),
      "tables" := Node(map["users" := Text("users"), "customfields" := Text("user_custom_fields")]),
      "mailer" := Node(map[
        "enabled" := Bool(false),
        "from" := Node(map["email" := Text("do-not-reply@" + host), "name" := Null]),
        "templates" := Node(map[
          "register" := Node(map["confirm" := Text("confirm.twig"), "welcome" := Text("welcome.twig")]),
          "invite" := Text("invite.twig"),
          "forget" := Text("forget.twig")]),
        "routes" := Node(map["login" := Text("user.jwt.login"), "reset" := Text("user.jwt.reset")])])
    ])
  }

  /** The user's options merged over the defaults. */
  function Merged(c: Container): Opt {
    ReplaceRecursive(Defaults(c.host), Node(c.userOptions.GetOr(map[])))
  }

  function Wire(opts: Opt): Wiring {
    Wiring(opts, SimpleUserOptions(false, At(opts, ["class"]), At(opts, ["tables", "users"]), At(opts, ["tables", "customfields"])))
  }

  /** `UserProvider::register`. */
  function Register(c: Container): (r: Result<Wiring, Failure>)
    ensures !c.hasJwtEncoder ==> r == Err(MissingDependency(SecurityJwtProvider))
    ensures c.hasJwtEncoder && !c.hasDb ==> r == Err(MissingDependency(DoctrineProvider))
    ensures c.hasJwtEncoder && c.hasDb && !c.hasVoters ==> r == Err(MissingDependency(SecurityProvider))
    ensures r.Ok? ==> c.hasJwtEncoder && c.hasDb && c.hasVoters
    ensures r.Ok? ==> r.value.jwtOptions == Merged(c)
    // the merged options are consistent: a feature that sends mail implies the mailer and its services
    ensures r.Ok? && (Truthy(At(Merged(c), ["invite", "enabled"])) || Truthy(At(Merged(c), ["forget", "enabled"]))) ==>
      Truthy(At(Merged(c), ["mailer", "enabled"]))
    ensures r.Ok? && Truthy(At(Merged(c), ["mailer", "enabled"])) ==> c.hasMailer && c.hasUrlGenerator && c.hasTwig
    ensures c.hasJwtEncoder && c.hasDb && c.hasVoters && !Truthy(At(Merged(c), ["mailer", "enabled"])) ==>
      (r.Err? <==> Truthy(At(Merged(c), ["invite", "enabled"])) || Truthy(At(Merged(c), ["forget", "enabled"])))
    ensures (c.hasJwtEncoder && c.hasDb && c.hasVoters && !Truthy(At(Merged(c), ["mailer", "enabled"]))
      && Truthy(At(Merged(c), ["invite", "enabled"]))) ==> r == Err(MailerNeeded(Controller.Invitations))
    ensures (HasCore(c) && !Truthy(At(Merged(c), ["mailer", "enabled"]))
      && !Truthy(At(Merged(c), ["invite", "enabled"])) && Truthy(At(Merged(c), ["forget", "enabled"]))) ==>
      r == Err(MailerNeeded(Controller.Forgetting))
    // with the mailer on, its three providers are checked in order, and then wiring succeeds
    ensures HasCore(c) && Truthy(At(Merged(c), ["mailer", "enabled"])) && !c.hasMailer ==>
      r == Err(MissingDependency(SwiftMailerProvider))
    ensures HasCore(c) && Truthy(At(Merged(c), ["mailer", "enabled"])) && c.hasMailer && !c.hasUrlGenerator ==>
      r == Err(MissingDependency(UrlGeneratorProvider))
    ensures HasCore(c) && Truthy(At(Merged(c), ["mailer", "enabled"])) && c.hasMailer && c.hasUrlGenerator && !c.hasTwig ==>
      r == Err(MissingDependency(TwigProvider))
    ensures HasCore(c) && Truthy(At(Merged(c), ["mailer", "enabled"])) && c.hasMailer && c.hasUrlGenerator && c.hasTwig ==>
      r.Ok?
    // the options derived for the parent library
    ensures r.Ok? ==>
      && !r.value.userOptions.mailerEnabled
      && r.value.userOptions.userClass == At(Merged(c), ["class"])
      && r.value.userOptions.userTableName == At(Merged(c), ["tables", "users"])
      && r.value.userOptions.userCustomFieldsTableName == At(Merged(c), ["tables", "customfields"])
  {
    if !c.hasJwtEncoder then Err(MissingDependency(SecurityJwtProvider))
    else if !c.hasDb then Err(MissingDependency(DoctrineProvider))
    else if !c.hasVoters then Err(MissingDependency(SecurityProvider))
    else
      var opts := Merged(c);
      if Truthy(At(opts, ["mailer", "enabled"])) then
        if !c.hasMailer then Err(MissingDependency(SwiftMailerProvider))
        else if !c.hasUrlGenerator then Err(MissingDependency(UrlGeneratorProvider))
        else if !c.hasTwig then Err(MissingDependency(TwigProvider))
        else Ok(Wire(opts))
      else if Truthy(At(opts, ["invite", "enabled"])) then Err(MailerNeeded(Controller.Invitations))
      else if Truthy(At(opts, ["forget", "enabled"])) then Err(MailerNeeded(Controller.Forgetting))
      else Ok(Wire(opts))
  }

  /** All three mandatory providers are present. */
  predicate HasCore(c: Container) {
    c.hasJwtEncoder && c.hasDb && c.hasVoters
  }

  /** The feature switches the defaults hold: registrations on, everything else off. */
  lemma DefaultSwitches(host: string)
    ensures At(Defaults(host), ["mailer", "enabled"]) == Bool(false)
    ensures At(Defaults(host), ["invite", "enabled"]) == Bool(false)
    ensures At(Defaults(host), ["forget", "enabled"]) == Bool(false)
  {
  }

  lemma DefaultRegistrations(host: string)
    ensures At(Defaults(host), ["registrations", "enabled"]) == Bool(true)
    ensures At(Defaults(host), ["registrations", "confirm"]) == Bool(false)
  {
  }

  /** The class, catalog and table names the defaults hold. */
  lemma DefaultNames(host: string)
    ensures At(Defaults(host), ["language"]) == Text(EnglishCatalog)
    ensures At(Defaults(host), ["class"]) == Text("SimpleUser\\JWT\\User")
  {
  }

  lemma DefaultTables(host: string)
    ensures At(Defaults(host), ["tables", "users"]) == Text("users")
    ensures At(Defaults(host), ["tables", "customfields"]) == Text("user_custom_fields")
  {
  }

  /** The route names the default mails link to. */
  lemma DefaultMailRoutes(host: string)
    ensures At(Defaults(host), ["mailer", "routes", "login"]) == Text("user.jwt.login")
    ensures At(Defaults(host), ["mailer", "routes", "reset"]) == Text("user.jwt.reset")
  {
  }

  /** With no user options the merged options are exactly the defaults. */
  lemma MergedWithoutOptions(c: Container)
    requires c.userOptions.None?
    ensures Merged(c) == Defaults(c.host)
  {
    ReplaceWithNothing(Defaults(c.host));
  }

  /**
    With no user options the provider accepts, and the handlers see
    registrations on without confirmation, invitations, forget and the mailer
    off, and the English catalog; the parent library gets the default tables.
   */
  lemma DefaultsWithoutOptions(c: Container, dev: bool, usernameRequired: bool, h: Controller.Roles.Hierarchy)
    requires HasCore(c) && c.userOptions.None?
    ensures Register(c).Ok?
    ensures
      var opts := Register(c).value.jwtOptions;
      var cfg := Controller.ConfigOf(opts, dev, usernameRequired, h);
      && cfg.registrationsEnabled && !cfg.registrationsConfirm
      && !cfg.inviteEnabled && !cfg.forgetEnabled
      && !Truthy(At(opts, ["mailer", "enabled"]))
      && At(opts, ["language"]) == Text(EnglishCatalog)
      && Register(c).value.userOptions == SimpleUserOptions(false, Text("SimpleUser\\JWT\\User"), Text("users"), Text("user_custom_fields"))
  {
    MergedWithoutOptions(c);
    DefaultSwitches(c.host);
    DefaultRegistrations(c.host);
    DefaultNames(c.host);
    DefaultTables(c.host);
  }

  /** Every scalar the user supplies, at any nesting level, is the merged value. */
  lemma UserScalarWins(c: Container, path: seq<string>, v: Opt)
    requires c.userOptions.Some? && Lookup(Node(c.userOptions.value), path) == Some(v) && !v.Node?
    ensures Lookup(Merged(c), path) == Some(v)
  {
    OverrideWins(Defaults(c.host), Node(c.userOptions.value), path, v);
  }

  /** Every default the user leaves unspecified, at any nesting level, survives. */
  lemma UnspecifiedDefaultKept(c: Container, path: seq<string>)
    requires Silent(Defaults(c.host), Node(c.userOptions.GetOr(map[])), path)
    ensures Lookup(Merged(c), path) == Lookup(Defaults(c.host), path)
  {
    DefaultKept(Defaults(c.host), Node(c.userOptions.GetOr(map[])), path);
  }

  /** The options of the integration tests: invitations, forget and the mailer on. */
  function TestOptions(): map<string, Opt> {
    map[
      "invite" := Node(map["enabled" := Bool(true)]),
      "forget" := Node(map["enabled" := Bool(true)]),
      "mailer" := Node(map[
        "enabled" := Bool(true),
        "from" := Node(map["email" := Text("do-not-reply@test.com"), "name" := Text("Test")])])
    ]
  }

  /** Each switch the test options set wins the merge. */
  lemma TestSwitchWins(host: string, feature: string)
    requires feature in {"mailer", "invite", "forget"}
    ensures At(ReplaceRecursive(Defaults(host), Node(TestOptions())), [feature, "enabled"]) == Bool(true)
  {
    var over := TestOptions();
    assert feature in over && over[feature].Node? && over[feature].children["enabled"] == Bool(true);
    assert Lookup(over[feature], ["enabled"]) == Some(Bool(true)) by {
      assert ["enabled"][1..] == [];
    }
    assert [feature, "enabled"][1..] == ["enabled"];
    OverrideWins(Defaults(host), Node(TestOptions()), [feature, "enabled"], Bool(true));
  }

  /** The switches the test options set win the merge. */
  lemma TestSwitchesWin(host: string)
    ensures
      var m := ReplaceRecursive(Defaults(host), Node(TestOptions()));
      && At(m, ["mailer", "enabled"]) == Bool(true)
      && At(m, ["invite", "enabled"]) == Bool(true)
      && At(m, ["forget", "enabled"]) == Bool(true)
  {
    TestSwitchWins(host, "mailer");
    TestSwitchWins(host, "invite");
    TestSwitchWins(host, "forget");
  }

  /** The defaults the test options leave alone survive the merge. */
  lemma TestKeepsRegistrations(host: string)
    ensures
      var m := ReplaceRecursive(Defaults(host), Node(TestOptions()));
      && At(m, ["registrations", "enabled"]) == Bool(true)
      && At(m, ["registrations", "confirm"]) == Bool(false)
  {
    var base, over := Defaults(host), Node(TestOptions());
    DefaultRegistrations(host);
    DefaultKept(base, over, ["registrations", "enabled"]);
    DefaultKept(base, over, ["registrations", "confirm"]);
  }

  /** The nested mailer defaults the test options leave alone survive the merge next to the ones they set. */
  lemma TestKeepsMailerDefaults(host: string)
    ensures
      var m := ReplaceRecursive(Defaults(host), Node(TestOptions()));
      && At(m, ["mailer", "templates", "invite"]) == Text("invite.twig")
      && At(m, ["mailer", "routes", "reset"]) == Text("user.jwt.reset")
  {
    var base, over := Defaults(host), Node(TestOptions());
    DefaultMailRoutes(host);
    assert At(base, ["mailer", "templates", "invite"]) == Text("invite.twig");
    DefaultKept(base, over, ["mailer", "templates", "invite"]);
    DefaultKept(base, over, ["mailer", "routes", "reset"]);
  }

  /**
    The test configuration wires up when every provider is registered, and
    the handlers then see invitations and forget enabled while registrations
    keep their defaults (on, without confirmation) and the templates keep theirs.
   */
  lemma TestConfigurationWires(c: Container, h: Controller.Roles.Hierarchy)
    requires c == Container(true, true, true, true, true, true, Some(TestOptions()), c.host)
    ensures Register(c).Ok?
    ensures
      var cfg := Controller.ConfigOf(Register(c).value.jwtOptions, true, false, h);
      && cfg.registrationsEnabled && !cfg.registrationsConfirm
      && cfg.inviteEnabled && cfg.forgetEnabled
      && cfg.inviteTemplate == Text("invite.twig")
      && cfg.resetRoute == Text("user.jwt.reset")
  {
    TestSwitchesWin(c.host);
    TestKeepsRegistrations(c.host);
    TestKeepsMailerDefaults(c.host);
  }

  datatype Verb = Get | Post

  /** A bound route: verb, path pattern, controller class and action, route name, parameter defaults. */
  datatype Route = Route(verb: Verb, path: string, controller: Opt, action: string, name: string, defaults: map<string, Opt>)

  const RouteNames: set<string> := {
    "user.jwt.register", "user.jwt.login", "user.jwt.invite", "user.jwt.friends",
    "user.jwt.forget", "user.jwt.reset", "user.jwt.update"}

  /** `UserProvider::connect`, for the merged options: seven routes, all to the configured controller. */
  function Connect(opts: Opt): (rs: seq<Route>)
    ensures |rs| == 7
    ensures forall i :: 0 <= i < |rs| ==> rs[i].controller == At(opts, ["controller"])
  {
    var ctl := At(opts, ["controller"]);
    [
      Route(Post, "/register", ctl, "register", "user.jwt.register", map[]),
      Route(Post, "/login", ctl, "login", "user.jwt.login", map[]),
      Route(Post, "/invite", ctl, "invite", "user.jwt.invite", map[]),
      Route(Get, "/friends", ctl, "friends", "user.jwt.friends", map[]),
      Route(Post, "/forget", ctl, "forget", "user.jwt.forget", map[]),
      Route(Post, "/reset/{token}", ctl, "reset", "user.jwt.reset", map[]),
      Route(Post, "/profil/{id}", ctl, "update", "user.jwt.update", map["id" := Null])
    ]
  }

  /** The route table binds exactly the seven route names. */
  lemma RouteNamesExact(opts: Opt)
    ensures (set i | 0 <= i < |Connect(opts)| :: Connect(opts)[i].name) == RouteNames
  {
    var rs := Connect(opts);
    var names := set i | 0 <= i < |rs| :: rs[i].name;
    assert rs[0].name in names && rs[1].name in names && rs[2].name in names && rs[3].name in names;
    assert rs[4].name in names && rs[5].name in names && rs[6].name in names;
  }

  /** No name is bound twice, so each name identifies one route. */
  lemma RouteNamesDistinct(opts: Opt)
    ensures forall i, j :: 0 <= i < j < |Connect(opts)| ==> Connect(opts)[i].name != Connect(opts)[j].name
  {
    var rs := Connect(opts);
    forall i, j | 0 <= i < j < |rs|
      ensures rs[i].name != rs[j].name
    {
      assert |rs[i].name| != |rs[j].name| || rs[i].name[9] != rs[j].name[9] || rs[i].name[10] != rs[j].name[10];
    }
  }

  /** Some route of `rs` binds `name` to `verb path` and the controller's `action`. */
  predicate Binds(rs: seq<Route>, name: string, verb: Verb, path: string, action: string) {
    exists i :: 0 <= i < |rs| && rs[i].name == name && rs[i].verb == verb && rs[i].path == path && rs[i].action == action
  }

  /** The seven bindings of the route table; only the friends listing is a GET. */
  lemma RouteBindings(opts: Opt)
    ensures Binds(Connect(opts), "user.jwt.register", Post, "/register", "register")
    ensures Binds(Connect(opts), "user.jwt.login", Post, "/login", "login")
    ensures Binds(Connect(opts), "user.jwt.invite", Post, "/invite", "invite")
    ensures Binds(Connect(opts), "user.jwt.friends", Get, "/friends", "friends")
    ensures Binds(Connect(opts), "user.jwt.forget", Post, "/forget", "forget")
    ensures Binds(Connect(opts), "user.jwt.reset", Post, "/reset/{token}", "reset")
    ensures Binds(Connect(opts), "user.jwt.update", Post, "/profil/{id}", "update")
  {
    var rs := Connect(opts);
    assert rs[0].name == "user.jwt.register";
    assert rs[1].name == "user.jwt.login";
    assert rs[2].name == "user.jwt.invite";
    assert rs[3].name == "user.jwt.friends";
    assert rs[4].name == "user.jwt.forget";
    assert rs[5].name == "user.jwt.reset";
    assert rs[6].name == "user.jwt.update";
  }

  /** Exactly one route has a parameter default: the profile route's `id`, which defaults to null. */
  lemma OnlyProfileHasDefault(opts: Opt)
    ensures forall i :: 0 <= i < |Connect(opts)| && Connect(opts)[i].defaults != map[] ==>
      Connect(opts)[i].name == "user.jwt.update" && Connect(opts)[i].defaults == map["id" := Null]
    ensures exists i ::
      0 <= i < |Connect(opts)| && Connect(opts)[i].name == "user.jwt.update" && Connect(opts)[i].defaults == map["id" := Null]
  {
    assert Connect(opts)[6].name == "user.jwt.update" && Connect(opts)[6].defaults == map["id" := Null];
  }

  /**
    The default mail routes name bound routes: the login route leads to the
    login action and the reset route to the reset action, whose path carries
    the token.
   */
  lemma DefaultMailRoutesResolve(c: Container)
    requires HasCore(c) && c.userOptions.None?
    ensures
      var opts := Register(c).value.jwtOptions;
      var cfg := Controller.ConfigOf(opts, false, false, map[]);
      && cfg.loginRoute.Text? && Binds(Connect(opts), cfg.loginRoute.s, Post, "/login", "login")
      && cfg.resetRoute.Text? && Binds(Connect(opts), cfg.resetRoute.s, Post, "/reset/{token}", "reset")
  {
    MergedWithoutOptions(c);
    DefaultSwitches(c.host);
    DefaultMailRoutes(c.host);
    RouteBindings(Register(c).value.jwtOptions);
  }
}

=== FILE: roles.dfy ===
/**
  Role hierarchy and the authorization check `isGranted`.

  A hierarchy maps a role to the roles it directly implies. A principal is
  granted a role when that role is reachable from one of its own roles,
  i.e. when it lies in the transitive closure of the principal's role set.
 */
module Roles {

  type Role = string

  const RoleUser: Role := "ROLE_USER"
  const RoleInvited: Role := "ROLE_INVITED"
  const RoleRegistered: Role := "ROLE_REGISTERED"
  const RoleAllowInvite: Role := "ROLE_ALLOW_INVITE"
  const RoleAdmin: Role := "ROLE_ADMIN"

  /** Each role maps to the roles it directly implies. */
  type Hierarchy = map<Role, set<Role>>

  /** Every role that some role of the hierarchy implies directly. */
  function Implied(h: Hierarchy): set<Role> {
    set k, r | k in h && r in h[k] :: r
  }

  /** The given roles together with the roles they imply in one step. */
  function Step(h: Hierarchy, rs: set<Role>): set<Role> {
    rs + set k, r | k in rs && k in h && r in h[k] :: r
  }

  /** A role set is closed when one step adds nothing to it. */
  predicate Closed(h: Hierarchy, rs: set<Role>) {
    Step(h, rs) <= rs
  }

  /** A step that adds something strictly shrinks the set of implied roles not yet reached. */
  lemma StepShrinksRemaining(h: Hierarchy, rs: set<Role>)
    requires !Closed(h, rs)
    ensures |Implied(h) - Step(h, rs)| < |Implied(h) - rs|
  {
    var x :| x in Step(h, rs) && x !in rs;
    assert x in Implied(h);
    var before, after := Implied(h) - rs, Implied(h) - Step(h, rs);
    assert after <= before - {x};
    assert before == (before - {x}) + {x};
    SubsetNoLarger(after, before - {x});
  }

  /** A subset is no larger than its superset. */
  lemma {:induction false} SubsetNoLarger<T>(a: set<T>, b: set<T>)
    requires a <= b
    ensures |a| <= |b|
    decreases |b|
  {
    if a != {} {
      var x :| x in a;
      SubsetNoLarger(a - {x}, b - {x});
    }
  }

  /** Transitive closure of `rs` under `h`: iterate `Step` until nothing is added. */
  function Closure(h: Hierarchy, rs: set<Role>): (c: set<Role>)
    ensures rs <= c
    ensures Closed(h, c)
    decreases |Implied(h) - rs|
  {
    if Closed(h, rs) then rs
    else
      StepShrinksRemaining(h, rs);
      Closure(h, Step(h, rs))
  }

  /** `Step` is monotone in the role set. */
  lemma StepMonotone(h: Hierarchy, a: set<Role>, b: set<Role>)
    requires a <= b
    ensures Step(h, a) <= Step(h, b)
  {
  }

  /**
    `Closure` is the LEAST closed superset: any closed role set that contains
    `rs` contains the whole closure. With `Closure`'s own contract this pins
    the closure down to the usual definition of transitive closure.
   */
  lemma {:induction false} ClosureLeast(h: Hierarchy, rs: set<Role>, d: set<Role>)
    requires rs <= d && Closed(h, d)
    ensures Closure(h, rs) <= d
    decreases |Implied(h) - rs|
  {
    if !Closed(h, rs) {
      StepShrinksRemaining(h, rs);
      StepMonotone(h, rs, d);
      ClosureLeast(h, Step(h, rs), d);
    }
  }

  /** Symfony's `isGranted(role)` for a principal holding `roles`. */
  predicate IsGranted(h: Hierarchy, roles: set<Role>, role: Role)
    ensures role in roles ==> IsGranted(h, roles, role)
  {
    role in Closure(h, roles)
  }

  /** A role directly implied by a held role is granted. */
  lemma {:induction false} GrantedByImplication(h: Hierarchy, roles: set<Role>, k: Role, role: Role)
    requires k in roles && k in h && role in h[k]
    ensures IsGranted(h, roles, role)
  {
    var c := Closure(h, roles);
    StepMonotone(h, roles, c);
    assert role in Step(h, roles);
  }

  /** Grants are inherited along the hierarchy: whatever a granted role grants is granted. */
  lemma {:induction false} GrantTransitive(h: Hierarchy, roles: set<Role>, mid: Role, role: Role)
    requires IsGranted(h, roles, mid) && IsGranted(h, {mid}, role)
    ensures IsGranted(h, roles, role)
  {
    ClosureLeast(h, {mid}, Closure(h, roles));
  }

  /** Holding more roles never loses a grant. */
  lemma {:induction false} GrantMonotone(h: Hierarchy, a: set<Role>, b: set<Role>, role: Role)
    requires a <= b && IsGranted(h, a, role)
    ensures IsGranted(h, b, role)
  {
    ClosureLeast(h, a, Closure(h, b));
  }

  /** The hierarchy the integration tests configure. */
  const TestHierarchy: Hierarchy := map[
    RoleInvited := {RoleUser},
    RoleRegistered := {RoleInvited, RoleAllowInvite},
    RoleAdmin := {RoleRegistered}
  ]

  /** A registered user may invite. */
  lemma RegisteredMayInvite()
    ensures IsGranted(TestHierarchy, {RoleRegistered}, RoleAllowInvite)
  {
    GrantedByImplication(TestHierarchy, {RoleRegistered}, RoleRegistered, RoleAllowInvite);
  }

  /** An administrator may invite, through ROLE_REGISTERED. */
  lemma AdminMayInvite()
    ensures IsGranted(TestHierarchy, {RoleAdmin}, RoleAllowInvite)
  {
    GrantedByImplication(TestHierarchy, {RoleAdmin}, RoleAdmin, RoleRegistered);
    RegisteredMayInvite();
    GrantTransitive(TestHierarchy, {RoleAdmin}, RoleRegistered, RoleAllowInvite);
  }

  /** An invited user may not invite: {ROLE_INVITED, ROLE_USER} is closed and lacks ROLE_ALLOW_INVITE. */
  lemma InvitedMayNotInvite()
    ensures !IsGranted(TestHierarchy, {RoleInvited}, RoleAllowInvite)
  {
    var d := {RoleInvited, RoleUser};
    assert Step(TestHierarchy, d) == d;
    ClosureLeast(TestHierarchy, {RoleInvited}, d);
  }

  /** A registered user is not an administrator. */
  lemma RegisteredIsNotAdmin()
    ensures !IsGranted(TestHierarchy, {RoleRegistered}, RoleAdmin)
  {
    var d := {RoleRegistered, RoleInvited, RoleAllowInvite, RoleUser};
    assert Step(TestHierarchy, d) == d;
    ClosureLeast(TestHierarchy, {RoleRegistered}, d);
  }
}

=== FILE: store.dfy ===
/**
  The user repository, seen as a finite map from id to user.

  The repository's `findOneBy` query has no ordering, so which of several
  matching users it returns is unspecified; this model chooses the one with
  the smallest id. Likewise the model gives a new user one more than the
  largest id in use (1 in an empty store), as an auto-increment key would.
 */
module Store {
  import opened Common
  import opened Users

  type Store = map<UserId, User>

  /** A non-empty set has an element. */
  lemma HasElement(s: set<int>)
    ensures s != {} ==> exists x :: x in s
  {
    if forall x :: x !in s {
      assert s == {};
    }
  }

  lemma {:induction false} MinExists(s: set<int>)
    requires s != {}
    ensures exists m :: m in s && forall x :: x in s ==> m <= x
    decreases |s|
  {
    HasElement(s);
    var y :| y in s;
    if s - {y} != {} {
      MinExists(s - {y});
      var m :| m in s - {y} && forall x :: x in s - {y} ==> m <= x;
      var least := if y < m then y else m;
      forall x | x in s
        ensures least <= x
      {
        if x != y {
          assert x in s - {y};
        }
      }
      assert least in s;
    } else {
      forall x | x in s
        ensures y <= x
      {
        assert x !in s - {y};
      }
    }
  }

  lemma {:induction false} MaxExists(s: set<int>)
    requires s != {}
    ensures exists m :: m in s && forall x :: x in s ==> x <= m
  {
    var neg := set x | x in s :: -x;
    HasElement(s);
    var y :| y in s;
    assert -y in neg;
    MinExists(neg);
    var m :| m in neg && forall x :: x in neg ==> m <= x;
    assert forall x :: x in s ==> -x in neg;
    assert -m in s;
  }

  /** The smallest element of a non-empty set of ids. */
  function MinOf(s: set<int>): (m: int)
    requires s != {}
    ensures m in s && forall x :: x in s ==> m <= x
  {
    MinExists(s);
    var m :| m in s && forall x :: x in s ==> m <= x; m
  }

  /** The largest element of a non-empty set of ids. */
  function MaxOf(s: set<int>): (m: int)
    requires s != {}
    ensures m in s && forall x :: x in s ==> x <= m
  {
    MaxExists(s);
    var m :| m in s && forall x :: x in s ==> x <= m; m
  }

  /** The first of a set of matching ids, in id order; None when nothing matches. */
  function First(ids: set<UserId>): (r: Option<UserId>)
    ensures r.None? <==> forall k :: k !in ids
    ensures r.Some? ==> r.value in ids && forall k :: k in ids ==> r.value <= k
  {
    if ids != {} then Some(MinOf(ids)) else None
  }

  /** `findOneBy(['email' => e])`. */
  function FindByEmail(s: Store, e: string): (r: Option<UserId>)
    ensures r.None? <==> forall k :: k in s ==> s[k].email != e
    ensures r.Some? ==> r.value in s && s[r.value].email == e
    ensures r.Some? ==> forall k :: k in s && s[k].email == e ==> r.value <= k
  {
    var ids := set k | k in s && s[k].email == e;
    var r := First(ids);
    assert forall k :: k in s && s[k].email == e ==> k in ids;
    assert r.None? ==> forall k :: k in s ==> k !in ids;
    assert r.Some? ==> r.value in ids;
    r
  }

  /** `findOneBy(['confirmationToken' => t])`. */
  function FindByToken(s: Store, t: string): (r: Option<UserId>)
    ensures r.None? <==> forall k :: k in s ==> s[k].confirmationToken != Some(t)
    ensures r.Some? ==> r.value in s && s[r.value].confirmationToken == Some(t)
    ensures r.Some? ==> forall k :: k in s && s[k].confirmationToken == Some(t) ==> r.value <= k
  {
    var ids := set k | k in s && s[k].confirmationToken == Some(t);
    var r := First(ids);
    assert forall k :: k in s && s[k].confirmationToken == Some(t) ==> k in ids;
    assert r.None? ==> forall k :: k in s ==> k !in ids;
    assert r.Some? ==> r.value in ids;
    r
  }

  /** Whether some stored user already has email `e`. */
  predicate EmailTaken(s: Store, e: string) {
    exists k :: k in s && s[k].email == e
  }

  /** The id the repository gives the next inserted user. */
  function FreshId(s: Store): (id: UserId)
    ensures id !in s
    ensures forall k :: k in s ==> k < id
  {
    if s.Keys != {} then MaxOf(s.Keys) + 1 else 1
  }

  /** Decimal text of an id, as stored in a custom field. */
  function IdText(n: int): string
    decreases if n < 0 then -n + 1 else n
  {
    if n < 0 then "-" + IdText(-n)
    else if n < 10 then [DigitChar(n)]
    else IdText(n / 10) + [DigitChar(n % 10)]
  }

  function DigitChar(d: int): char
    requires 0 <= d < 10
  {
    "0123456789"[d]
  }

  /** The `invited_by` custom field of a user, if set. */
  function InvitedBy(u: User): Option<string> {
    if "invited_by" in u.customFields then Some(u.customFields["invited_by"]) else None
  }

  /**
    The repository's invariants: emails are unique, an outstanding
    confirmation token identifies one user, and a token is outstanding
    exactly while a request timestamp is recorded.
   */
  ghost predicate WellFormed(s: Store) {
    && (forall a, b :: a in s && b in s && s[a].email == s[b].email ==> a == b)
    && (forall a, b ::
          (a in s && b in s && s[a].confirmationToken.Some? && s[a].confirmationToken == s[b].confirmationToken)
          ==> a == b)
    && (forall a :: a in s ==> (s[a].confirmationToken.Some? <==> s[a].timePasswordResetRequested.Some?))
  }

  /** No stored user holds token `t` (what the token generator's entropy provides). */
  ghost predicate TokenFresh(s: Store, t: string) {
    forall k :: k in s ==> s[k].confirmationToken != Some(t)
  }
}

=== FILE: users.dfy ===
/**
  The user record and its public-claims projection.

  The projection is what the controller signs into bearer tokens and what
  the `friends` listing returns: exactly the user's id, roles, email and
  enabled flag, built as an explicit whitelist.
 */
module Users {
  import opened Common
  import opened Roles

  /** Users are identified by the integer key the repository assigns. */
  type UserId = int

  /**
    A stored user. The id is not a field: it is the key under which the
    repository keeps the record, and a user that has not been inserted yet
    has none. `password` is the encoded credential; the model never looks
    inside it or inside `salt`.
   */
  datatype User = User(
    email: string,
    password: string,
    salt: string,
    roles: set<Role>,
    enabled: bool,
    confirmationToken: Option<string>,
    timePasswordResetRequested: Option<int>,
    name: string,
    username: string,
    customFields: map<string, string>)

  /** A freshly created, not yet inserted user: no roles, enabled, no token outstanding. */
  function Created(email: string, password: string, salt: string): (u: User)
    ensures u.email == email && u.password == password && u.salt == salt
    ensures u.roles == {} && u.enabled
    ensures u.confirmationToken == None && u.timePasswordResetRequested == None
    ensures u.customFields == map[]
    ensures u.name == "" && u.username == ""
  {
    User(email, password, salt, {}, true, None, None, "", "", map[])
  }

  /** A JSON value as it appears in a claim set. */
  datatype Claim = JNull | JInt(i: int) | JText(s: string) | JBool(b: bool) | JRoles(rs: set<Role>)

  /** A serialized user: claim names to claim values. */
  type ClaimMap = map<string, Claim>

  const PublicKeys: set<string> := {"id", "roles", "email", "enabled"}

  /** The typed public view of a user, one field per whitelisted getter. */
  datatype Claims = Claims(id: Option<UserId>, roles: set<Role>, email: string, enabled: bool)

  /**
    The getters `getId`, `getRoles`, `getEmail` and `isEnabled`, read off a
    (possibly unsaved) user. `getRoles` belongs to the parent library and is
    taken to return exactly the stored roles.
   */
  function Getters(id: Option<UserId>, u: User): Claims {
    Claims(id, u.roles, u.email, u.enabled)
  }

  /** How a user id is written into a claim set: an integer, or null before insertion. */
  function IdClaim(id: Option<UserId>): Claim {
    match id
    case Some(i) => JInt(i)
    case None => JNull
  }

  /**
    `User::serialize`: the whitelist projection. Its keys are exactly the
    four public names and each value is what the corresponding getter returns.
   */
  function Serialize(id: Option<UserId>, u: User): (m: ClaimMap)
    ensures m.Keys == PublicKeys
    ensures Decode(m) == Some(Getters(id, u))
  {
    map["id" := IdClaim(id), "roles" := JRoles(u.roles), "email" := JText(u.email), "enabled" := JBool(u.enabled)]
  }

  /**
    Reads a claim set back into its typed view, as a token's consumer would.
    Fails unless the map has exactly the public keys with well-typed values.
   */
  function Decode(m: ClaimMap): (r: Option<Claims>)
    ensures r.Some? ==> m.Keys == PublicKeys
  {
    if m.Keys == PublicKeys
       && (m["id"].JInt? || m["id"].JNull?) && m["roles"].JRoles? && m["email"].JText? && m["enabled"].JBool?
    then
      var id := if m["id"].JInt? then Some(m["id"].i) else None;
      Some(Claims(id, m["roles"].rs, m["email"].s, m["enabled"].b))
    else None
  }

  /** `User::jsonSerialize`: JSON encoding goes through the same projection. */
  function JsonSerialize(id: Option<UserId>, u: User): (m: ClaimMap)
    ensures m.Keys == PublicKeys
    ensures Decode(m) == Some(Getters(id, u))
  {
    Serialize(id, u)
  }

  /**
    The projection is a whitelist: two users serialize alike exactly when
    their ids, roles, emails and enabled flags agree. In particular the
    password, salt, confirmation token, reset timestamp, name, username and
    custom fields never influence it.
   */
  lemma SerializeExactlyPublic(id: Option<UserId>, u: User, id': Option<UserId>, u': User)
    ensures Serialize(id, u) == Serialize(id', u') <==>
      id == id' && u.roles == u'.roles && u.email == u'.email && u.enabled == u'.enabled
  {
    if Serialize(id, u) == Serialize(id', u') {
      assert Decode(Serialize(id, u)) == Decode(Serialize(id', u'));
    }
  }
}
